=== FILE: README.md ===
# OrderManager order-creation core, in Dafny

This project models the business core of OrderManager. OrderManager is a REST service that takes order-creation requests from an upstream system. It taxes each order under one of two flat-rate policies, chosen by a feature flag. It then stores the order and serves it to a downstream system. The model covers these parts:

- the `Order` aggregate and its `OrderItem` lines (`order.dfy`, `order_item.dfy`). The line total is derived. The order total is fixed at creation. The status has four states: Pending, Processing, Processed and Failed. The transition methods change it without any guard.
- the two tax strategies and the factory that picks one from the flag (`tax.dfy`);
- the `Error` record, its code factories and `Result` (`common.dfy`). The controller's mapping from code suffix to HTTP status is in `controller.dfy`.
- the request and command validators (`validators.dfy`). Each one yields its list of failures, in rule order.
- the in-memory repository, a `map<Guid, Order>` (`repository.dfy`);
- the create handler (`create_order.dfy`) and the two lookup handlers (`queries.dfy`);
- the controller's create and lookup actions (`controller.dfy`).

Everything is a pure function or a method over immutable values. Each transition returns a rebuilt order. The store is passed in and returned. Outside inputs become parameters:

- the feature flag is the boolean `useNewTaxCalculation`;
- `Guid.NewGuid()` and `DateTime.UtcNow` are supplied in an `Env`. It holds the order id, one id per item, and the two clock readings the handler takes.

Amounts are exact `real`s, as C# `decimal` is exact for these values. The rates are `3.0 / 10.0` and `2.0 / 10.0`. Quantities are an `Int32` newtype.

The dictionary's enumeration order is not specified. `Enumerate` therefore picks any order of the keys. `GetByPedidoId`, `GetAll` and `GetProcessed` are methods over that order. Their contracts hold for every order the dictionary might use.

Where the intended behaviour and the code disagree, the model follows the code:

- Transitions are not one-way, and `ApplyTax` can be called twice. `Orders.TransitionsAreUnguarded` shows both. What is proved instead is that the create handler only drives Pending → Processing → Processed (`CreateOrderHandler.WorkflowStatusPath`).
- The store's insert is `TryAdd`. It does not report a conflict. If the fresh order Id were already a key, nothing would be written, yet the handler would still return Success. The contracts of `CreateOrderHandler.Handle` state this case separately.
- The 50-character limit on PedidoId exists only in the command validator. The request validator that the controller runs has no such limit.
- `NotEmpty` rejects white-space-only names and ids, not only empty ones. This follows FluentValidation's semantics.

## Model

| member | source | states |
|---|---|---|
| `OrderItems.Create` | OrderManager.Domain/Entities/OrderItem.cs:13-22 | name, quantity and price are stored as given. The line total is quantity × price, and positive when both are. |
| `OrderItems.TotalPricePositive` | OrderManager.Domain/Entities/OrderItem.cs:9 | a positive quantity at a positive price gives a positive line total |
| `OrderItems.TotalPriceExample` | OrderManager.Tests/Application/CreateOrderCommandHandlerTests.cs:42-53 | two units at 50.00 give a line total of 100.00 |
| `Orders.Create` | OrderManager.Domain/Entities/Order.cs:18-31 | a new order is Pending, has no processed time and has tax 0. It keeps its id and items. Its total is the sum of the line totals. |
| `Orders.ApplyTax` | OrderManager.Domain/Entities/Order.cs:33-36 | only the tax changes. Status, processed time and the immutable fields are kept. |
| `Orders.MarkAsProcessing` | OrderManager.Domain/Entities/Order.cs:38-41 | status becomes Processing and nothing else changes |
| `Orders.MarkAsProcessed` | OrderManager.Domain/Entities/Order.cs:43-47 | status becomes Processed and the processed time is the clock reading given. Tax and the immutable fields are kept. |
| `Orders.MarkAsFailed` | OrderManager.Domain/Entities/Order.cs:49-52 | status becomes Failed. The processed time is left as it was. |
| `Orders.RunKeepsAggregate` | OrderManager.Domain/Entities/Order.cs:33-52 | no sequence of transition calls changes the id, external id, items, total or creation time |
| `Orders.RunKeepsStamp` | OrderManager.Domain/Entities/Order.cs:43-52 | transitions never clear a processed time, and a Processed order always carries one |
| `Orders.CreatedOrdersStayStamped` | OrderManager.Domain/Entities/Order.cs:18-52 | every order reachable from `Create` that is Processed has a processed time |
| `Orders.TransitionsAreUnguarded` | OrderManager.Domain/Entities/Order.cs:33-52 | a Processed or Failed order can be moved back to Processing. A second `ApplyTax` overwrites the first. |
| `Orders.SumTotalsAppend` | OrderManager.Domain/Entities/Order.cs:25 | the total of a concatenation is the sum of the parts' totals |
| `Orders.SumTotalsSwap` | OrderManager.Domain/Entities/Order.cs:25 | exchanging two blocks of items leaves the total unchanged |
| `Orders.SumTotalsRemove` | OrderManager.Domain/Entities/Order.cs:25 | the total is any one line's total plus the total of the remaining lines |
| `Orders.SumTotalsPermutation` | OrderManager.Domain/Entities/Order.cs:25 | any two item lists with the same lines, in whatever order, have the same total |
| `Orders.SumTotalsPositive` | OrderManager.Domain/Entities/Order.cs:25 | a non-empty list of positive lines has a positive total |
| `CurrentTaxStrategy.CalculateTax` | OrderManager.Domain/Strategies/CurrentTaxStrategy.cs:5-12 | the tax is exactly three tenths of the total, with no rounding. On a non-negative total it lies between 0 and the total. |
| `CurrentTaxStrategy.Examples` | OrderManager.Tests/Domain/CurrentTaxStrategyTests.cs:28-57 | 0, 100, 200 and 1000 give 0, 30, 60 and 300. 333.33 gives 99.999 exactly. |
| `CurrentTaxStrategy.Additive` | OrderManager.Domain/Strategies/CurrentTaxStrategy.cs:9-12 | the tax of a sum is the sum of the taxes |
| `ReformTaxStrategy.CalculateTax` | OrderManager.Domain/Strategies/ReformTaxStrategy.cs:5-12 | the tax is exactly two tenths of the total, with no rounding. On a non-negative total it lies between 0 and the total. |
| `ReformTaxStrategy.Examples` | OrderManager.Tests/Domain/ReformTaxStrategyTests.cs:28-57 | 0, 100, 200 and 1000 give 0, 20, 40 and 200. 333.33 gives 66.666 exactly. |
| `ReformTaxStrategy.Additive` | OrderManager.Domain/Strategies/ReformTaxStrategy.cs:9-12 | the tax of a sum is the sum of the taxes |
| `TaxStrategies.GetStrategy` | OrderManager.Application/Services/TaxStrategyFactory.cs:23-28 | the flag selects Reform (named "TaxReform") exactly when it is on, and Current (named "Current") otherwise. The choice depends on the flag argument alone. |
| `TaxStrategies.EffectiveRate` | OrderManager.Application/Services/TaxStrategyFactory.cs:25-27 | the selected strategy taxes at 20% with the flag on and 30% with it off |
| `TaxStrategies.ReformNotAboveCurrent` | OrderManager.Domain/Strategies/ReformTaxStrategy.cs:5-12 | on a non-negative total, the reform tax never exceeds the current tax |
| `Common.NotFound` | OrderManager.Domain/Common/Error.cs:7-8 | the code is entity + ".NotFound" and ends with that suffix. The message contains the identifier and the entity. |
| `Common.Duplicate` | OrderManager.Domain/Common/Error.cs:10-11 | the code is entity + ".Duplicate" and ends with that suffix. The message contains the identifier and the entity. |
| `Common.Validation` | OrderManager.Domain/Common/Error.cs:13-14 | the code is "Validation.Error" and the message is passed through |
| `Common.OrderNotFound` | OrderManager.Domain/Common/Error.cs:19-20 | the code is "Order.NotFound" and the message contains the Guid's text |
| `Common.OrderNotFoundByPedidoId` | OrderManager.Domain/Common/Error.cs:22-23 | the code is "Order.NotFound" and the message contains the external id |
| `Common.OrderDuplicate` | OrderManager.Domain/Common/Error.cs:25-26 | the code is "Order.Duplicate" and the message contains the external id |
| `Common.NotFoundCodesAgree` | OrderManager.Domain/Common/Error.cs:19-26 | both not-found factories give the same code, and it differs from the duplicate code |
| `Dtos.ToResponse` | OrderManager.Application/Mappings/OrderProfile.cs:14-18 | the response carries the order's fields, with the status as its enum name. It has one item per line, in order, each with quantity × price as its total. |
| `Dtos.StatusNameInjective` | OrderManager.Application/Mappings/OrderProfile.cs:15 | distinct statuses render as distinct names |
| `Validators.MessageTextInjective` | OrderManager.Application/Orders/Commands/CreateOrder/CreateOrderCommandValidator.cs:13-35 | the six messages the rules declare have pairwise distinct texts, so naming a failure's message loses nothing |
| `Validators.ItemFailures` | OrderManager.Application/Validators/CreateOrderRequestValidator.cs:22-35 | an item has no failure exactly when its name is not blank, its quantity is > 0 and its price is > 0. The ProductName, Quantity and UnitPrice failures each appear exactly when their own rule is broken, and no other failure is reported. |
| `Validators.ItemFailuresInRuleOrder` | OrderManager.Application/Validators/CreateOrderRequestValidator.cs:26-33 | an item's failures come in declaration order, at most one per rule, and all name that item's index |
| `Validators.EachItemFailures` | OrderManager.Application/Orders/Commands/CreateOrder/CreateOrderCommandValidator.cs:23-36 | the per-item rules report nothing exactly when every item passes. Every failure names an item of the list. |
| `Validators.EachItemFailuresInRuleOrder` | OrderManager.Application/Orders/Commands/CreateOrder/CreateOrderCommandValidator.cs:23-36 | the failures come item by item in list order, each item's in rule order, never twice, and at most three per item |
| `Validators.EachItemFailuresExactly` | OrderManager.Application/Orders/Commands/CreateOrder/CreateOrderCommandValidator.cs:23-36 | a failure is reported exactly when it names an item of the list and that item's rules report it |
| `Validators.ValidateCommand` | OrderManager.Application/Orders/Commands/CreateOrder/CreateOrderCommandValidator.cs:11-37 | a command is valid exactly when the id is not blank, has at most 50 characters, there is an item and every item passes. "PedidoId is required." appears exactly when the id is blank, the 50-character failure exactly when the id is longer, and the items failure exactly when the list is empty. |
| `Validators.ValidateCommandExactly` | OrderManager.Application/Orders/Commands/CreateOrder/CreateOrderCommandValidator.cs:11-37 | besides those three failures, the command reports exactly the item failures of its items, and nothing else |
| `Validators.ValidateCommandInRuleOrder` | OrderManager.Application/Orders/Commands/CreateOrder/CreateOrderCommandValidator.cs:11-37 | the failures come in rule order: the id rules, the Items rule, then the items in list order. None is repeated, and there are at most three plus three per item. |
| `Validators.ItemsPresenceFailures` | OrderManager.Application/Validators/CreateOrderRequestValidator.cs:13-16 | both Items rules fail on a null or empty list and pass otherwise, so they never disagree |
| `Validators.ValidateRequest` | OrderManager.Application/Validators/CreateOrderRequestValidator.cs:8-19 | a request is valid exactly when the id is not blank, the list is present and non-empty and every item passes. A valid request has a list. The id failure appears exactly when the id is blank, and the items failure exactly when the list is null or empty. |
| `Validators.ValidateRequestExactly` | OrderManager.Application/Validators/CreateOrderRequestValidator.cs:8-19 | besides those two failures, the request reports exactly the item failures of its list's items (none for a null list), and nothing else |
| `Validators.ValidateRequestCounts` | OrderManager.Application/Validators/CreateOrderRequestValidator.cs:10-16 | the id failure is reported at most once. The items failure is reported twice when the list is null or empty, and never otherwise. |
| `Validators.ValidateRequestInRuleOrder` | OrderManager.Application/Validators/CreateOrderRequestValidator.cs:8-19 | the failures come in rule order. Two equal entries are always the doubled items failure; every other failure ranks strictly before all that follow it. There are at most three plus three per item. |
| `Validators.RequestValidThenCommandValidIffShort` | OrderManager.Application/Orders/Commands/CreateOrder/CreateOrderCommandValidator.cs:13-17 | for a request the controller accepts, the command is valid exactly when the id has at most 50 characters |
| `Validators.CommandValidThenRequestValid` | OrderManager.Application/Validators/CreateOrderRequestValidator.cs:8-19 | every command the command validator accepts passes the request validator too |
| `Validators.LongPedidoIdSplitsTheValidators` | OrderManager.Application/Orders/Commands/CreateOrder/CreateOrderCommandValidator.cs:16-17 | a 51-character id passes the request rules and fails only the command's length rule |
| `Validators.EmptyRequestRejected` | OrderManager.Tests/Integration/OrdersControllerIntegrationTests.cs:76-82 | an empty id with an empty list yields the id failure and the items failure twice |
| `Validators.NullItemsRejected` | OrderManager.Application/Validators/CreateOrderRequestValidator.cs:13-16 | a null item list is refused by both Items rules |
| `Validators.BlankProductNameRejected` | OrderManager.Application/Validators/CreateOrderRequestValidator.cs:26-27 | a white-space-only product name is reported as missing |
| `InMemoryOrderRepository.Enumerate` | OrderManager.Infrastructure.Data/Repositories/InMemoryOrderRepository.cs:10 | the dictionary's enumeration lists every key exactly once |
| `InMemoryOrderRepository.GetById` | OrderManager.Infrastructure.Data/Repositories/InMemoryOrderRepository.cs:12-16 | the result is the stored order when the Id is a key, and null otherwise |
| `InMemoryOrderRepository.FirstWithPedidoId` | OrderManager.Infrastructure.Data/Repositories/InMemoryOrderRepository.cs:20 | the result is the first order in the list with that external id, or null when none has it |
| `InMemoryOrderRepository.GetByPedidoId` | OrderManager.Infrastructure.Data/Repositories/InMemoryOrderRepository.cs:18-22 | the result is a stored order with that external id when one exists, and null otherwise |
| `InMemoryOrderRepository.GetAll` | OrderManager.Infrastructure.Data/Repositories/InMemoryOrderRepository.cs:24-27 | exactly the stored orders, as many as there are entries. In a store keyed by order Id, no order is listed twice. |
| `InMemoryOrderRepository.ProcessedOnly` | OrderManager.Infrastructure.Data/Repositories/InMemoryOrderRepository.cs:31-32 | the filter keeps each Processed order as many times as it occurs and drops every other order. A list without repeats gives a result without repeats. |
| `InMemoryOrderRepository.ProcessedOnlyAppend` | OrderManager.Infrastructure.Data/Repositories/InMemoryOrderRepository.cs:31-32 | filtering a concatenation gives the filtered parts in order, so the filter keeps the relative order of its input |
| `InMemoryOrderRepository.ProcessedOnlySingle` | OrderManager.Infrastructure.Data/Repositories/InMemoryOrderRepository.cs:31-32 | a single order is kept exactly when it is Processed |
| `InMemoryOrderRepository.GetProcessed` | OrderManager.Infrastructure.Data/Repositories/InMemoryOrderRepository.cs:29-34 | exactly the stored orders whose status is Processed. In a store keyed by order Id, each one appears once. |
| `InMemoryOrderRepository.Exists` | OrderManager.Infrastructure.Data/Repositories/InMemoryOrderRepository.cs:36-40 | true exactly when some stored order has that external id |
| `InMemoryOrderRepository.Add` | OrderManager.Infrastructure.Data/Repositories/InMemoryOrderRepository.cs:42-46 | the order's Id joins the keys. Existing entries are never overwritten, and a free Id maps to the order. |
| `InMemoryOrderRepository.Update` | OrderManager.Infrastructure.Data/Repositories/InMemoryOrderRepository.cs:48-52 | the order's Id maps to the order, whether or not it was a key. Every other entry is kept. |
| `InMemoryOrderRepository.AddThenGetById` | OrderManager.Infrastructure.Data/Repositories/InMemoryOrderRepository.cs:42-46 | after adding under a free Id, reading that Id returns the order |
| `InMemoryOrderRepository.UpdateThenGetById` | OrderManager.Infrastructure.Data/Repositories/InMemoryOrderRepository.cs:48-52 | after an update, reading the Id returns the new order |
| `InMemoryOrderRepository.AddThenExists` | OrderManager.Infrastructure.Data/Repositories/InMemoryOrderRepository.cs:36-46 | after an add, an external id exists exactly when it did before or it belongs to the new order under a free Id |
| `InMemoryOrderRepository.AddKeepsInvariants` | OrderManager.Infrastructure.Data/Repositories/InMemoryOrderRepository.cs:36-46 | adding an order whose external id is absent keeps entries keyed by their own Id and external ids unique |
| `CreateOrderHandler.BuildItems` | OrderManager.Application/Orders/Commands/CreateOrder/CreateOrderCommandHandler.cs:34-36 | one line per requested item, in order. Each line has the requested name, quantity and price, and its own fresh id. |
| `CreateOrderHandler.BuildItemsTotal` | OrderManager.Application/Orders/Commands/CreateOrder/CreateOrderCommandHandler.cs:34-38 | the order's total equals the sum of quantity × price over the requested items |
| `CreateOrderHandler.BuildOrder` | OrderManager.Application/Orders/Commands/CreateOrder/CreateOrderCommandHandler.cs:34-45 | the built order is Processed and carries both clock readings. Its total is the requested amount, taxed by the selected strategy. |
| `CreateOrderHandler.WorkflowStatusPath` | OrderManager.Application/Orders/Commands/CreateOrder/CreateOrderCommandHandler.cs:38-45 | the handler's three transition calls build the order, and the statuses visited are Pending, Processing, Processing, Processed |
| `CreateOrderHandler.Handle` | OrderManager.Application/Orders/Commands/CreateOrder/CreateOrderCommandHandler.cs:27-50 | a known external id fails with "Order.Duplicate" and leaves the store unchanged. Otherwise the result is Success: Processed, with the requested id and items, total and selected tax. The response is that of the built order. Exactly that order is added under its Id, or nothing if the Id is taken. Unique external ids stay unique. |
| `CreateOrderHandler.ProcessedNotBeforeCreated` | OrderManager.Domain/Entities/Order.cs:27-46 | if the second clock reading is not earlier than the first, the created order is processed at or after its creation. The store keeps that ordering for every stamped order. |
| `CreateOrderHandler.HandleAllKeepsStampsInOrder` | OrderManager.Application/Orders/Commands/CreateOrder/CreateOrderCommandHandler.cs:38-47 | across any sequence of creates whose clock never steps back, no stored order is processed before it was created |
| `CreateOrderHandler.HandleAllKeepsPedidoIdsUnique` | OrderManager.Application/Orders/Commands/CreateOrder/CreateOrderCommandHandler.cs:29-47 | across any sequence of create calls, no two stored orders share an external id |
| `CreateOrderHandler.PassingItemsHavePositiveTotal` | OrderManager.Application/Orders/Commands/CreateOrder/CreateOrderCommandValidator.cs:29-35 | a non-empty list of items that pass the item rules asks for a positive amount, the sum of quantity × price |
| `CreateOrderHandler.ValidCommandHasPositiveTotal` | OrderManager.Application/Orders/Commands/CreateOrder/CreateOrderCommandValidator.cs:19-36 | a command the validator accepts asks for a positive amount |
| `CreateOrderHandler.HandlerExamples` | OrderManager.Tests/Application/CreateOrderCommandHandlerTests.cs:37-80 | 2×50.00 at 30% gives total 100.00 and tax 30.00. 1×100.00 at 20% gives tax 20.00. 2×50.00 plus 1×25.00 gives 125.00, taxed 37.50. |
| `CreateOrderHandler.DuplicateRejected` | OrderManager.Tests/Application/CreateOrderCommandHandlerTests.cs:86-101 | an external id already stored gives "Order.Duplicate" and writes nothing |
| `OrderQueries.GetOrderById` | OrderManager.Application/Orders/Queries/GetOrderById/GetOrderByIdQueryHandler.cs:20-30 | an absent Id gives the "Order.NotFound" error for it. A present Id gives that order's response, with its external id. |
| `OrderQueries.GetOrderByPedidoId` | OrderManager.Application/Orders/Queries/GetOrderByPedidoId/GetOrderByPedidoIdQueryHandler.cs:20-30 | an absent external id gives the "Order.NotFound" error for it. Otherwise the result is a stored order with that id, and the unique one when ids are unique. |
| `OrderQueries.CreateThenGetById` | OrderManager.Tests/Integration/OrdersControllerIntegrationTests.cs:89-106 | after a successful create, looking up the returned Id succeeds. With a fresh Id it returns the created order. |
| `OrderQueries.CreateThenPedidoIdFound` | OrderManager.Tests/Integration/OrdersControllerIntegrationTests.cs:128-145 | after a successful create under a fresh Id, the external id is found |
| `OrderQueries.MissingIdNotFound` | OrderManager.Tests/Application/GetOrderByIdQueryHandlerTests.cs:52-64 | looking up an Id that is not stored gives "Order.NotFound" |
| `OrdersController.SuffixesExclusive` | OrderManager.API/Controllers/OrdersController.cs:109-114 | no code ends with both ".NotFound" and ".Duplicate" |
| `OrdersController.ToErrorResponse` | OrderManager.API/Controllers/OrdersController.cs:107-115 | status 404 exactly for ".NotFound" codes and 409 exactly for ".Duplicate" codes. Every other code gets 400. Code and message are passed through. |
| `OrdersController.ErrorStatuses` | OrderManager.API/Controllers/OrdersController.cs:109-114 | not-found errors map to 404 and duplicate errors to 409. "Validation.Error" and the empty code map to 400. |
| `OrdersController.CreateOrder` | OrderManager.API/Controllers/OrdersController.cs:36-58 | the outcome is a 400 with the request validator's failures exactly when that validator rejects the request, and nothing is written. A request-valid id over 50 characters, and only such an id, ends in the command validator's rejection, whose only failure is the 50-character one; nothing is written. For a valid request with an id of at most 50 characters, the result is 409 exactly when the id exists and 201 otherwise. A 409 writes nothing. A 201 carries the handler's success response and the store the handler left. |
| `OrdersController.GetOrderByIdEndpoint` | OrderManager.API/Controllers/OrdersController.cs:63-73 | 200 with the order exactly when the Id is stored, 404 otherwise |
| `OrdersController.GetOrderByPedidoIdEndpoint` | OrderManager.API/Controllers/OrdersController.cs:78-88 | 200 exactly when an order with the external id is stored, 404 otherwise. The 200 body is a stored order's response carrying that id, and the unique one when external ids are unique. |
| `OrdersController.CreateTwiceConflicts` | OrderManager.Tests/Integration/OrdersControllerIntegrationTests.cs:52-67 | a first create with a new id gives 201. Sending the same request again gives 409 and leaves the store unchanged. |
| `OrdersController.EmptyRequestIsBadRequest` | OrderManager.Tests/Integration/OrdersControllerIntegrationTests.cs:73-83 | an empty id with no items gives 400 and writes nothing |

## Left out

- The MediatR validation pipeline behaviour is not part of this model. It runs the command validator before the handler. A request-valid command with an id over 50 characters therefore ends in the `CommandRejected` outcome. The model gives that outcome no HTTP status and assumes it writes nothing.
- `GetAllOrdersQueryHandler` and `GetProcessedOrdersQueryHandler` pass the repository's list through the mapper. They and the list endpoints are not modelled separately; the repository's `GetAll` and `GetProcessed` carry their contracts.
- Concurrency and async are not modelled. All calls are sequential. The Exists-then-Add race between concurrent creates, and the intended rule that exactly one of several concurrent creates with the same external id succeeds, are outside a sequential model.
- The EF Core / PostgreSQL repository, its numeric(18,2) column rounding, dependency injection, host startup, logging and Swagger are out of scope. They are framework wiring, not order logic.
- `FeatureFlagService` only reads configuration. The flag is a boolean parameter.
- `Guid.NewGuid()` and `DateTime.UtcNow` are inputs in `Env`. A `Guid` is represented only by its text, and a `DateTime` by an integer tick count.
- Decimal range and overflow (28–29 significant digits) are not modelled. Amounts are unbounded reals.
- Null strings are not modelled. `NotEmpty` rejects null the same way as blank, so no validator outcome changes. A null item list in the request is modelled.
- Null elements inside the item list are not modelled; the item lists are sequences of non-null requests. FluentValidation skips null elements in `RuleForEach`, both with `SetValidator` (CreateOrderRequestValidator.cs:18) and with `ChildRules` (CreateOrderCommandValidator.cs:23). A body such as `"items": [null]` therefore passes both validators. The handler then dereferences the null element (CreateOrderCommandHandler.cs:35) and throws. The exception handler (Program.cs:41-49) answers 500, and nothing is stored.
- `Validators.ValidateRequest`: "valid exactly when every item passes" holds only for lists without null elements. A list with a null element is accepted by the real validator when its other elements pass; see the line above.
- `CreateOrderHandler.ValidCommandHasPositiveTotal`: it covers only commands without null elements. A command with a null element passes validation, but the handler throws instead of totalling it.
- `MaximumLength` counts UTF-16 code units, but the model counts Unicode scalar values. The two differ only for characters outside the Basic Multilingual Plane.
- `string.EndsWith(string)` compares using the current culture. The model compares character by character, which agrees for the ASCII codes the service produces.
- Validation failure property names are modelled as a path (`Items`, or item index plus field). They are not the rendered strings such as `Items[0].ProductName`. A failure's message is one of the six `FailureMessage` values; `MessageText` gives its text.
- The `CreatedAtAction` location header, the log messages and the unused `ApiErrorResponse` record are not modelled.
- `OrdersController.CreateOrder`: ASP.NET Core's automatic model validation under `[ApiController]` (OrdersController.cs:14) is not modelled. With nullable reference types enabled (the project file is not part of this model), the non-nullable `PedidoId`, `Items` and `ProductName` carry an implicit `[Required]`. A null `Items` list, or a null, empty or white-space-only `PedidoId` or `ProductName`, is then refused by the framework before the action runs. The answer is still 400, but its body is a problem-details object rather than the validator's failure list. The model's "400 with the validator's failures" holds only where the framework lets the request through.
- `OrdersController.CreateOrder`: it requires one item id in `env` per requested item. This sizes the model's stand-in for the handler's per-item `Guid.NewGuid()` calls; it is not a demand the source makes.
- `CreateOrderHandler.Handle`: it requires the environment to hold one item id per requested item (`Fits`). This sizes the model's stand-in for the per-item `Guid.NewGuid()` calls; it is not a demand the source makes.
- `InMemoryOrderRepository.GetProcessed`: it does not relate the order of its result to any particular enumeration, because the dictionary's enumeration order is unspecified. The filter's order-keeping is stated on `ProcessedOnly` itself.
- `CreateOrderHandler.ProcessedNotBeforeCreated`: the source does not guarantee processed-after-created. It reads `DateTime.UtcNow` twice (Order.cs:27 and Order.cs:46), and the wall clock can step backwards between the reads. The model takes both readings from `Env` and proves the ordering only for readings that do not step back (`ClockForward`).

=== FILE: common.dfy ===
/** The error taxonomy of the domain: an `Error` record carrying a dotted
    `<Entity>.<Kind>` code and a human-readable message, its generic
    factories, the order-specific factories built on them, and the
    success-or-error `Result` every handler returns. */
module Common {
  import opened Text
  import opened Primitives

  datatype Error = Error(code: string, message: string)

  /** `Error.None`: the error a successful result carries. */
  const NoError: Error := Error("", "")

  /** `Error.NotFound(entity, identifier)`. */
  function NotFound(entity: string, identifier: string): (e: Error)
    ensures e.code == entity + ".NotFound"
    ensures EndsWith(e.code, ".NotFound")
    ensures Contains(e.message, identifier)
    ensures Contains(e.message, entity)
  {
    var before := entity + " with identifier '";
    var after := "' was not found.";
    ContainsMiddle(before, identifier, after);
    ContainsMiddle("", entity, " with identifier '" + identifier + after);
    assert before + identifier + after == "" + entity + (" with identifier '" + identifier + after);
    Error(entity + ".NotFound", before + identifier + after)
  }

  /** `Error.Duplicate(entity, identifier)`. */
  function Duplicate(entity: string, identifier: string): (e: Error)
    ensures e.code == entity + ".Duplicate"
    ensures EndsWith(e.code, ".Duplicate")
    ensures Contains(e.message, identifier)
    ensures Contains(e.message, entity)
  {
    var before := entity + " with identifier '";
    var after := "' already exists.";
    ContainsMiddle(before, identifier, after);
    ContainsMiddle("", entity, " with identifier '" + identifier + after);
    assert before + identifier + after == "" + entity + (" with identifier '" + identifier + after);
    Error(entity + ".Duplicate", before + identifier + after)
  }

  /** `Error.Validation(message)`: a fixed code, the message passed through. */
  function Validation(message: string): (e: Error)
    ensures e.code == "Validation.Error"
    ensures e.message == message
  {
    Error("Validation.Error", message)
  }

  /** `OrderErrors.NotFound(id)`: scoped to the order's internal id. */
  function OrderNotFound(id: Guid): (e: Error)
    ensures e.code == "Order.NotFound"
    ensures EndsWith(e.code, ".NotFound")
    ensures Contains(e.message, id.text)
  {
    NotFound("Order", id.text)
  }

  /** `OrderErrors.NotFoundByPedidoId(pedidoId)`: scoped to the external id. */
  function OrderNotFoundByPedidoId(pedidoId: string): (e: Error)
    ensures e.code == "Order.NotFound"
    ensures EndsWith(e.code, ".NotFound")
    ensures Contains(e.message, pedidoId)
  {
    NotFound("Order", pedidoId)
  }

  /** `OrderErrors.Duplicate(pedidoId)`. */
  function OrderDuplicate(pedidoId: string): (e: Error)
    ensures e.code == "Order.Duplicate"
    ensures EndsWith(e.code, ".Duplicate")
    ensures Contains(e.message, pedidoId)
  {
    Duplicate("Order", pedidoId)
  }

  /** The two not-found errors share one code, so a client cannot tell from
      the code alone which identifier was looked up; the message says. */
  lemma NotFoundCodesAgree(id: Guid, pedidoId: string)
    ensures OrderNotFound(id).code == OrderNotFoundByPedidoId(pedidoId).code
    ensures OrderNotFound(id).code != OrderDuplicate(pedidoId).code
  {
  }

  /** `Result<T>`: a value, or the error that replaced it. Reading `value`
      of a failure is a verification error here, where the source throws. */
  datatype Result<T> = Success(value: T) | Failure(error: Error)
}

=== FILE: controller.dfy ===
/** `OrdersController`: the HTTP boundary. It validates the create request,
    dispatches the command, and renders handler errors as status codes by the
    suffix of their code. Responses are reduced to a status and a body. */
module OrdersController {
  import opened Primitives
  import opened Text
  import opened Common
  import opened Dtos
  import opened Validators
  import opened InMemoryOrderRepository
  import opened CreateOrderHandler
  import opened OrderQueries

  /** The `{ Code, Message }` body and the status it is sent with. */
  datatype ErrorResponse = ErrorResponse(status: int, code: string, message: string)

  /** A code cannot end with both ".NotFound" and ".Duplicate": the last
      characters differ. */
  lemma SuffixesExclusive(code: string)
    ensures !(EndsWith(code, ".NotFound") && EndsWith(code, ".Duplicate"))
  {
    if EndsWith(code, ".NotFound") && EndsWith(code, ".Duplicate") {
      EndsWithLastChar(code, ".NotFound");
      EndsWithLastChar(code, ".Duplicate");
    }
  }

  /** `ToErrorResponse`: 404 for a not-found code, 409 for a duplicate code,
      400 for anything else. Because no code has both suffixes, each status
      corresponds to exactly one condition and the order of the arms does
      not matter. */
  function ToErrorResponse(e: Error): (r: ErrorResponse)
    ensures r.code == e.code && r.message == e.message
    ensures r.status == 404 <==> EndsWith(e.code, ".NotFound")
    ensures r.status == 409 <==> EndsWith(e.code, ".Duplicate")
    ensures r.status == 400 <==> !EndsWith(e.code, ".NotFound") && !EndsWith(e.code, ".Duplicate")
  {
    SuffixesExclusive(e.code);
    if EndsWith(e.code, ".NotFound") then ErrorResponse(404, e.code, e.message)
    else if EndsWith(e.code, ".Duplicate") then ErrorResponse(409, e.code, e.message)
    else ErrorResponse(400, e.code, e.message)
  }

  /** What each error factory is rendered as. */
  lemma ErrorStatuses(entity: string, identifier: string, message: string, id: Guid, pedidoId: string)
    ensures ToErrorResponse(NotFound(entity, identifier)).status == 404
    ensures ToErrorResponse(Duplicate(entity, identifier)).status == 409
    ensures ToErrorResponse(Validation(message)).status == 400
    ensures ToErrorResponse(NoError).status == 400
    ensures ToErrorResponse(OrderNotFound(id)).status == 404
    ensures ToErrorResponse(OrderNotFoundByPedidoId(pedidoId)).status == 404
    ensures ToErrorResponse(OrderDuplicate(pedidoId)).status == 409
  {
    assert !EndsWith("Validation.Error", ".NotFound");
    assert !EndsWith("Validation.Error", ".Duplicate");
  }

  /** The outcome of `POST /api/orders`. */
  datatype CreateOutcome =
    | InvalidRequest(failures: seq<ValidationFailure>)   // BadRequest with the validation errors
    | CommandRejected(failures: seq<ValidationFailure>)  // stopped by the command validator in the pipeline
    | Created(order: OrderResponse)                      // CreatedAtAction
    | HandlerError(response: ErrorResponse)              // ToErrorResponse

  /** The HTTP status of an outcome; none is fixed for a command the pipeline
      rejects, because the pipeline's handling is not part of this model. */
  function StatusOf(outcome: CreateOutcome): Option<int> {
    match outcome
    case InvalidRequest(_) => Some(400)
    case CommandRejected(_) => None
    case Created(_) => Some(201)
    case HandlerError(response) => Some(response.status)
  }

  /** `OrdersController.CreateOrder`: validate the request, then send the
      command; a failure is rendered by its code, a success is 201. */
  function CreateOrder(s: Store, req: CreateOrderRequest, env: Env, useNewTaxCalculation: bool): (out: (CreateOutcome, Store))
    requires req.items.Some? ==> |env.itemIds| == |req.items.value|
    ensures ValidateRequest(req) != [] ==> out.0 == InvalidRequest(ValidateRequest(req)) && out.1 == s
    ensures StatusOf(out.0) == Some(400) ==> out.1 == s
    ensures out.0.InvalidRequest? <==> ValidateRequest(req) != []
    ensures out.0.CommandRejected? <==> ValidateRequest(req) == [] && |req.pedidoId| > MaxPedidoIdLength
    ensures out.0.CommandRejected? ==>
              && out.1 == s
              && out.0.failures == ValidateCommand(CreateOrderCommand(req.pedidoId, req.items.value))
              && out.0.failures == [PedidoIdTooLong]
    ensures out.0.Created? || out.0.HandlerError? ==>
              && ValidateRequest(req) == []
              && ValidateCommand(CreateOrderCommand(req.pedidoId, req.items.value)) == []
    ensures ValidateRequest(req) == [] && |req.pedidoId| <= MaxPedidoIdLength ==>
              (StatusOf(out.0) == Some(409) <==> Exists(s, req.pedidoId))
              && (StatusOf(out.0) == Some(201) <==> !Exists(s, req.pedidoId))
    ensures out.0.Created? ==> out.0.order.status == "Processed" && out.0.order.pedidoId == req.pedidoId
    ensures StatusOf(out.0) == Some(409) ==> out.1 == s
    ensures out.0.Created? ==>
              var handled := Handle(s, CreateOrderCommand(req.pedidoId, req.items.value), env, useNewTaxCalculation);
              && handled.0 == Success(out.0.order)
              && out.1 == handled.1
  {
    var failures := ValidateRequest(req);
    if failures != [] then
      (InvalidRequest(failures), s)
    else
      var cmd := CreateOrderCommand(req.pedidoId, req.items.value);
      RequestValidThenCommandValidIffShort(cmd);
      var commandFailures := ValidateCommand(cmd);
      if commandFailures != [] then
        (CommandRejected(commandFailures), s)
      else
        var handled := Handle(s, cmd, env, useNewTaxCalculation);
        match handled.0
        case Failure(error) =>
          assert error == OrderDuplicate(req.pedidoId);
          (HandlerError(ToErrorResponse(error)), handled.1)
        case Success(order) =>
          (Created(order), handled.1)
  }

  /** The outcome of a `GET` of one order. */
  datatype LookupOutcome = Found(order: OrderResponse) | Missing(response: ErrorResponse)

  function LookupStatus(outcome: LookupOutcome): int {
    match outcome
    case Found(_) => 200
    case Missing(response) => response.status
  }

  /** `OrdersController.GetOrderById`: 200 with the order, or 404. */
  function GetOrderByIdEndpoint(s: Store, id: Guid): (r: LookupOutcome)
    ensures LookupStatus(r) == 200 <==> id in s
    ensures LookupStatus(r) == 404 <==> id !in s
    ensures r.Found? ==> r.order == ToResponse(s[id])
  {
    match GetOrderById(s, id)
    case Failure(error) => Missing(ToErrorResponse(error))
    case Success(order) => Found(order)
  }

  /** `OrdersController.GetOrderByPedidoId`: 200 with an order carrying the
      external id, or 404. */
  method GetOrderByPedidoIdEndpoint(s: Store, pedidoId: string) returns (r: LookupOutcome)
    ensures LookupStatus(r) == 200 <==> Exists(s, pedidoId)
    ensures LookupStatus(r) == 404 <==> !Exists(s, pedidoId)
    ensures r.Found? ==> r.order.pedidoId == pedidoId
    ensures r.Found? ==> exists k :: k in s && r.order == ToResponse(s[k])
    ensures forall k :: UniquePedidoIds(s) && k in s && s[k].pedidoId == pedidoId ==>
              r == Found(ToResponse(s[k]))
  {
    var result := GetOrderByPedidoId(s, pedidoId);
    match result
    case Failure(error) =>
      r := Missing(ToErrorResponse(error));
    case Success(order) =>
      r := Found(order);
  }

  /** The integration tests' create requests: a new external id is created
      (201) and sending the same request again is a conflict (409) that
      leaves the store as it was. */
  lemma CreateTwiceConflicts(s: Store, req: CreateOrderRequest, env1: Env, env2: Env, useNewTaxCalculation: bool)
    requires ValidateRequest(req) == [] && |req.pedidoId| <= MaxPedidoIdLength
    requires |env1.itemIds| == |req.items.value| && |env2.itemIds| == |req.items.value|
    requires !Exists(s, req.pedidoId)
    requires env1.orderId !in s
    ensures var first := CreateOrder(s, req, env1, useNewTaxCalculation);
            var second := CreateOrder(first.1, req, env2, useNewTaxCalculation);
            && StatusOf(first.0) == Some(201)
            && StatusOf(second.0) == Some(409)
            && second.1 == first.1
  {
    var cmd := CreateOrderCommand(req.pedidoId, req.items.value);
    var first := CreateOrder(s, req, env1, useNewTaxCalculation);
    assert first.1 == Handle(s, cmd, env1, useNewTaxCalculation).1;
    CreateThenPedidoIdFound(s, cmd, env1, useNewTaxCalculation);
  }

  /** An empty PedidoId with no items is a 400 that writes nothing. */
  lemma EmptyRequestIsBadRequest(s: Store, env: Env, useNewTaxCalculation: bool)
    requires |env.itemIds| == 0
    ensures var out := CreateOrder(s, CreateOrderRequest("", Some([])), env, useNewTaxCalculation);
            StatusOf(out.0) == Some(400) && out.1 == s
  {
    EmptyRequestRejected();
  }
}

=== FILE: create_order.dfy ===
/** `CreateOrderCommandHandler`: reject a known external id, otherwise build
    the order, move it to Processing, apply the tax of the strategy the flag
    selects, mark it Processed, store it and return its response. The store
    is threaded through as a value; the ids and clock readings the handler
    would draw are supplied in an `Env`. */
module CreateOrderHandler {
  import opened Primitives
  import opened Common
  import opened OrderItems
  import opened Orders
  import opened TaxStrategies
  import opened Dtos
  import opened Validators
  import opened InMemoryOrderRepository

  /** What the handler draws from its surroundings during one call: the
      `Guid.NewGuid()` values for the order and for each item, in item order,
      and the two `DateTime.UtcNow` readings (in `Order.Create` and in
      `MarkAsProcessed`). */
  datatype Env = Env(orderId: Guid, itemIds: seq<Guid>, createdAt: Instant, processedAt: Instant)

  /** The environment holds one item id per requested item. */
  predicate Fits(env: Env, cmd: CreateOrderCommand) {
    |env.itemIds| == |cmd.items|
  }

  /** `request.Items.Select(i => OrderItem.Create(...)).ToList()`. */
  function BuildItems(reqs: seq<OrderItemRequest>, ids: seq<Guid>): (items: seq<OrderItem>)
    requires |ids| == |reqs|
    ensures |items| == |reqs|
    ensures forall i :: 0 <= i < |reqs| ==>
              && items[i].id == ids[i]
              && items[i].productName == reqs[i].productName
              && items[i].quantity == reqs[i].quantity
              && items[i].unitPrice == reqs[i].unitPrice
    decreases |reqs|
  {
    if |reqs| == 0 then []
    else
      [OrderItems.Create(ids[0], reqs[0].productName, reqs[0].quantity, reqs[0].unitPrice)]
      + BuildItems(reqs[1..], ids[1..])
  }

  /** The amount a request asks for: the sum of quantity times unit price. */
  function RequestTotal(reqs: seq<OrderItemRequest>): real
    decreases |reqs|
  {
    if |reqs| == 0 then 0.0
    else (reqs[0].quantity as int) as real * reqs[0].unitPrice + RequestTotal(reqs[1..])
  }

  /** The order's total is the amount the request asks for. */
  lemma {:induction false} BuildItemsTotal(reqs: seq<OrderItemRequest>, ids: seq<Guid>)
    requires |ids| == |reqs|
    ensures SumTotals(BuildItems(reqs, ids)) == RequestTotal(reqs)
    decreases |reqs|
  {
    if |reqs| > 0 {
      var items := BuildItems(reqs, ids);
      assert items[1..] == BuildItems(reqs[1..], ids[1..]);
      BuildItemsTotal(reqs[1..], ids[1..]);
    }
  }

  /** The order built, taxed and marked Processed, before it is stored. */
  function BuildOrder(cmd: CreateOrderCommand, env: Env, useNewTaxCalculation: bool): (o: Order)
    requires Fits(env, cmd)
    ensures o.id == env.orderId && o.pedidoId == cmd.pedidoId
    ensures o.items == BuildItems(cmd.items, env.itemIds)
    ensures o.totalAmount == RequestTotal(cmd.items)
    ensures o.taxAmount == CalculateTax(GetStrategy(useNewTaxCalculation), RequestTotal(cmd.items))
    ensures o.status == Processed
    ensures o.createdAt == env.createdAt && o.processedAt == Some(env.processedAt)
  {
    var created := Orders.Create(env.orderId, cmd.pedidoId, BuildItems(cmd.items, env.itemIds), env.createdAt);
    var processing := MarkAsProcessing(created);
    var taxAmount := CalculateTax(GetStrategy(useNewTaxCalculation), processing.totalAmount);
    var taxed := ApplyTax(processing, taxAmount);
    BuildItemsTotal(cmd.items, env.itemIds);
    MarkAsProcessed(taxed, env.processedAt)
  }

  /** The mutator calls the handler makes, in order. */
  function WorkflowSteps(created: Order, useNewTaxCalculation: bool, now: Instant): seq<Transition> {
    [ProcessingStep,
     ApplyTaxStep(CalculateTax(GetStrategy(useNewTaxCalculation), created.totalAmount)),
     ProcessedStep(now)]
  }

  /** The handler drives the order only along Pending, Processing, Processed:
      its three calls are exactly `WorkflowSteps`, and they visit those
      statuses in that order. */
  lemma WorkflowStatusPath(cmd: CreateOrderCommand, env: Env, useNewTaxCalculation: bool)
    requires Fits(env, cmd)
    ensures var created := Orders.Create(env.orderId, cmd.pedidoId, BuildItems(cmd.items, env.itemIds), env.createdAt);
            var steps := WorkflowSteps(created, useNewTaxCalculation, env.processedAt);
            && Run(created, steps) == BuildOrder(cmd, env, useNewTaxCalculation)
            && StatusTrace(created, steps) == [Pending, Processing, Processing, Processed]
  {
    var created := Orders.Create(env.orderId, cmd.pedidoId, BuildItems(cmd.items, env.itemIds), env.createdAt);
    var steps := WorkflowSteps(created, useNewTaxCalculation, env.processedAt);
    var o1 := Step(created, steps[0]);
    var o2 := Step(o1, steps[1]);
    var o3 := Step(o2, steps[2]);
    assert steps[1..][0] == steps[1] && steps[1..][1..][0] == steps[2];
    assert steps[1..][1..][1..] == [];
    assert Run(o3, []) == o3;
    assert Run(created, steps) == Run(o1, steps[1..]) == Run(o2, steps[1..][1..]) == o3;
    assert StatusTrace(o3, []) == [Processed];
    assert StatusTrace(created, steps) == [Pending] + StatusTrace(o1, steps[1..]);
    assert StatusTrace(o1, steps[1..]) == [Processing] + StatusTrace(o2, steps[1..][1..]);
    assert StatusTrace(o2, steps[1..][1..]) == [Processing] + StatusTrace(o3, steps[1..][1..][1..]);
  }

  /** `CreateOrderCommandHandler.Handle`: the response, and the store afterwards. */
  function Handle(s: Store, cmd: CreateOrderCommand, env: Env, useNewTaxCalculation: bool): (out: (Result<OrderResponse>, Store))
    requires Fits(env, cmd)
    ensures Exists(s, cmd.pedidoId) <==> out.0.Failure?
    ensures out.0.Failure? ==> out.0.error == OrderDuplicate(cmd.pedidoId) && out.1 == s
    ensures out.0.Success? ==>
              && out.0.value.pedidoId == cmd.pedidoId
              && out.0.value.status == "Processed"
              && out.0.value.processedAt == Some(env.processedAt)
              && out.0.value.createdAt == env.createdAt
              && out.0.value.totalAmount == RequestTotal(cmd.items)
              && out.0.value.taxAmount == CalculateTax(GetStrategy(useNewTaxCalculation), RequestTotal(cmd.items))
              && |out.0.value.items| == |cmd.items|
              && (forall i :: 0 <= i < |cmd.items| ==>
                    && out.0.value.items[i].productName == cmd.items[i].productName
                    && out.0.value.items[i].quantity == cmd.items[i].quantity
                    && out.0.value.items[i].unitPrice == cmd.items[i].unitPrice)
    ensures out.0.Success? ==> out.0.value == ToResponse(BuildOrder(cmd, env, useNewTaxCalculation))
    ensures out.0.Success? ==> out.1 == Add(s, BuildOrder(cmd, env, useNewTaxCalculation))
    ensures out.0.Success? && env.orderId !in s ==>
              && out.1.Keys == s.Keys + {env.orderId}
              && out.1[env.orderId] == BuildOrder(cmd, env, useNewTaxCalculation)
              && out.0.value == ToResponse(out.1[env.orderId])
    ensures out.0.Success? && env.orderId in s ==> out.1 == s
    ensures WellKeyed(s) && UniquePedidoIds(s) ==> WellKeyed(out.1) && UniquePedidoIds(out.1)
  {
    if Exists(s, cmd.pedidoId) then
      (Failure(OrderDuplicate(cmd.pedidoId)), s)
    else
      var order := BuildOrder(cmd, env, useNewTaxCalculation);
      var s' := Add(s, order);
      assert WellKeyed(s) && UniquePedidoIds(s) ==> WellKeyed(s') && UniquePedidoIds(s') by {
        if WellKeyed(s) && UniquePedidoIds(s) {
          AddKeepsInvariants(s, order);
        }
      }
      (Success(ToResponse(order)), s')
  }

  /** One call of the handler with its environment. */
  datatype Call = Call(cmd: CreateOrderCommand, env: Env, useNewTaxCalculation: bool)

  ghost predicate AllFit(calls: seq<Call>) {
    forall i :: 0 <= i < |calls| ==> Fits(calls[i].env, calls[i].cmd)
  }

  /** The store after the calls `calls`, one after another. */
  function HandleAll(s: Store, calls: seq<Call>): Store
    requires AllFit(calls)
    decreases |calls|
  {
    if |calls| == 0 then s
    else
      var c := calls[0];
      HandleAll(Handle(s, c.cmd, c.env, c.useNewTaxCalculation).1, calls[1..])
  }

  /** However many orders are created one after another, no two stored
      orders share an external id. */
  lemma {:induction false} HandleAllKeepsPedidoIdsUnique(s: Store, calls: seq<Call>)
    requires AllFit(calls)
    requires WellKeyed(s) && UniquePedidoIds(s)
    ensures WellKeyed(HandleAll(s, calls)) && UniquePedidoIds(HandleAll(s, calls))
    decreases |calls|
  {
    if |calls| > 0 {
      var c := calls[0];
      var s' := Handle(s, c.cmd, c.env, c.useNewTaxCalculation).1;
      assert AllFit(calls[1..]) by {
        forall i | 0 <= i < |calls[1..]|
          ensures Fits(calls[1..][i].env, calls[1..][i].cmd)
        {
          assert calls[1..][i] == calls[i + 1];
        }
      }
      HandleAllKeepsPedidoIdsUnique(s', calls[1..]);
    }
  }

  /** The handler reads the clock twice, so an order is stamped no earlier
      than it was created only when the clock did not step back between the
      two readings. */
  predicate ClockForward(env: Env) {
    env.createdAt <= env.processedAt
  }

  /** Every stored order that carries a processed time was processed no
      earlier than it was created. */
  ghost predicate StampsInOrder(s: Store) {
    forall k :: k in s && s[k].processedAt.Some? ==> s[k].createdAt <= s[k].processedAt.value
  }

  /** With a clock that does not step back, a created order is processed at or
      after its creation, and the store keeps that ordering for every order. */
  lemma ProcessedNotBeforeCreated(s: Store, cmd: CreateOrderCommand, env: Env, useNewTaxCalculation: bool)
    requires Fits(env, cmd)
    requires ClockForward(env)
    requires StampsInOrder(s)
    ensures var out := Handle(s, cmd, env, useNewTaxCalculation);
            out.0.Success? ==> out.0.value.processedAt.Some? && out.0.value.createdAt <= out.0.value.processedAt.value
    ensures StampsInOrder(Handle(s, cmd, env, useNewTaxCalculation).1)
  {
  }

  /** Over any sequence of creates whose clock readings do not step back, no
      stored order is processed before it was created. */
  lemma {:induction false} HandleAllKeepsStampsInOrder(s: Store, calls: seq<Call>)
    requires AllFit(calls)
    requires forall i :: 0 <= i < |calls| ==> ClockForward(calls[i].env)
    requires StampsInOrder(s)
    ensures StampsInOrder(HandleAll(s, calls))
    decreases |calls|
  {
    if |calls| > 0 {
      var c := calls[0];
      var s' := Handle(s, c.cmd, c.env, c.useNewTaxCalculation).1;
      ProcessedNotBeforeCreated(s, c.cmd, c.env, c.useNewTaxCalculation);
      assert AllFit(calls[1..]) by {
        forall i | 0 <= i < |calls[1..]|
          ensures Fits(calls[1..][i].env, calls[1..][i].cmd)
        {
          assert calls[1..][i] == calls[i + 1];
        }
      }
      assert forall i :: 0 <= i < |calls[1..]| ==> calls[1..][i] == calls[i + 1];
      HandleAllKeepsStampsInOrder(s', calls[1..]);
    }
  }

  /** A non-empty list of items that pass the item rules asks for a
      positive amount. */
  lemma {:induction false} PassingItemsHavePositiveTotal(items: seq<OrderItemRequest>)
    requires |items| > 0
    requires AllItemRulesHold(items)
    ensures RequestTotal(items) > 0.0
    decreases |items|
  {
    assert ItemRulesHold(items[0]);
    var q := (items[0].quantity as int) as real;
    assert q * items[0].unitPrice > 0.0;
    if |items| > 1 {
      assert AllItemRulesHold(items[1..]) by {
        forall i | 0 <= i < |items[1..]|
          ensures ItemRulesHold(items[1..][i])
        {
          assert items[1..][i] == items[i + 1];
        }
      }
      PassingItemsHavePositiveTotal(items[1..]);
    } else {
      assert items[1..] == [];
    }
    assert RequestTotal(items) == q * items[0].unitPrice + RequestTotal(items[1..]);
  }

  /** A command the command validator accepts yields a positive total. */
  lemma ValidCommandHasPositiveTotal(cmd: CreateOrderCommand)
    requires ValidateCommand(cmd) == []
    ensures RequestTotal(cmd.items) > 0.0
  {
    PassingItemsHavePositiveTotal(cmd.items);
  }

  /** The handler tests and the integration test: one line of 2 x 50.00 at
      30% gives 100.00 and 30.00; one line of 1 x 100.00 at 20% gives a tax of
      20.00; lines 2 x 50.00 and 1 x 25.00 give 125.00, taxed 37.50 at 30%. */
  lemma HandlerExamples(env1: Env, env2: Env, env3: Env)
    requires |env1.itemIds| == 1 && |env2.itemIds| == 1 && |env3.itemIds| == 2
    ensures var r := Handle(map[], CreateOrderCommand("PED-001", [OrderItemRequest("Product A", 2, 50.00)]), env1, false).0;
            r.Success? && r.value.pedidoId == "PED-001" && r.value.totalAmount == 100.00
            && r.value.taxAmount == 30.00 && r.value.status == "Processed"
    ensures var r := Handle(map[], CreateOrderCommand("PED-002", [OrderItemRequest("Product B", 1, 100.00)]), env2, true).0;
            r.Success? && r.value.taxAmount == 20.00
    ensures var r := Handle(map[], CreateOrderCommand("PED-003", [OrderItemRequest("Product A", 2, 50.00), OrderItemRequest("Product B", 1, 25.00)]), env3, false).0;
            r.Success? && r.value.totalAmount == 125.00 && r.value.taxAmount == 37.50 && |r.value.items| == 2
  {
    var reqs := [OrderItemRequest("Product A", 2, 50.00), OrderItemRequest("Product B", 1, 25.00)];
    assert reqs[1..][1..] == [];
    assert RequestTotal(reqs) == 125.00;
  }

  /** Creating with an external id already stored fails, whatever the store
      holds otherwise, and writes nothing. */
  lemma DuplicateRejected(s: Store, cmd: CreateOrderCommand, env: Env, useNewTaxCalculation: bool, k: Guid)
    requires Fits(env, cmd)
    requires k in s && s[k].pedidoId == cmd.pedidoId
    ensures Handle(s, cmd, env, useNewTaxCalculation).0.error.code == "Order.Duplicate"
    ensures Handle(s, cmd, env, useNewTaxCalculation).1 == s
  {
  }
}

=== FILE: dtos.dfy ===
/** The messages that cross the application boundary: the create request and
    command, and the response records the `OrderProfile` mapping fills. */
module Dtos {
  import opened Primitives
  import opened OrderItems
  import opened Orders

  datatype OrderItemRequest = OrderItemRequest(productName: string, quantity: Int32, unitPrice: real)

  /** `CreateOrderRequest` as it arrives in the body; `Items` may be null. */
  datatype CreateOrderRequest = CreateOrderRequest(pedidoId: string, items: Option<seq<OrderItemRequest>>)

  datatype CreateOrderCommand = CreateOrderCommand(pedidoId: string, items: seq<OrderItemRequest>)

  datatype OrderItemResponse = OrderItemResponse(productName: string, quantity: Int32, unitPrice: real, totalPrice: real)

  datatype OrderResponse = OrderResponse(
    id: Guid,
    pedidoId: string,
    items: seq<OrderItemResponse>,
    totalAmount: real,
    taxAmount: real,
    status: string,
    createdAt: Instant,
    processedAt: Option<Instant>)

  function ItemResponse(item: OrderItem): OrderItemResponse {
    OrderItemResponse(item.productName, item.quantity, item.unitPrice, TotalPrice(item))
  }

  /** `OrderProfile`: a field-by-field projection, the status rendered as its
      enum name and each item with its derived line total. */
  function ToResponse(o: Order): (r: OrderResponse)
    ensures r.id == o.id && r.pedidoId == o.pedidoId
    ensures r.totalAmount == o.totalAmount && r.taxAmount == o.taxAmount
    ensures r.status == StatusName(o.status)
    ensures r.createdAt == o.createdAt && r.processedAt == o.processedAt
    ensures |r.items| == |o.items|
    ensures forall i :: 0 <= i < |o.items| ==>
              && r.items[i].productName == o.items[i].productName
              && r.items[i].quantity == o.items[i].quantity
              && r.items[i].unitPrice == o.items[i].unitPrice
              && r.items[i].totalPrice == (o.items[i].quantity as int) as real * o.items[i].unitPrice
  {
    OrderResponse(
      o.id, o.pedidoId,
      seq(|o.items|, i requires 0 <= i < |o.items| => ItemResponse(o.items[i])),
      o.totalAmount, o.taxAmount, StatusName(o.status), o.createdAt, o.processedAt)
  }

  /** Distinct statuses render as distinct names, so the response status
      identifies the order's status. */
  lemma StatusNameInjective(a: OrderStatus, b: OrderStatus)
    requires StatusName(a) == StatusName(b)
    ensures a == b
  {
  }
}

=== FILE: order.dfy ===
/** The order aggregate: its items, the total computed at creation, the tax,
    and a four-state status changed by transition operations. The C# class
    mutates private setters; here each operation returns the rebuilt value. */
module Orders {
  import opened Primitives
  import opened OrderItems

  datatype OrderStatus = Pending | Processing | Processed | Failed

  /** `OrderStatus.ToString()`: the name of the enum member. */
  function StatusName(s: OrderStatus): string {
    match s
    case Pending => "Pending"
    case Processing => "Processing"
    case Processed => "Processed"
    case Failed => "Failed"
  }

  datatype Order = Order(
    id: Guid,
    pedidoId: string,
    items: seq<OrderItem>,
    totalAmount: real,
    taxAmount: real,
    status: OrderStatus,
    createdAt: Instant,
    processedAt: Option<Instant>)

  /** `items.Sum(i => i.TotalPrice)`. */
  function SumTotals(items: seq<OrderItem>): real {
    if |items| == 0 then 0.0 else TotalPrice(items[0]) + SumTotals(items[1..])
  }

  /** The fields no operation after `Create` touches. */
  predicate SameAggregate(a: Order, b: Order) {
    && a.id == b.id
    && a.pedidoId == b.pedidoId
    && a.items == b.items
    && a.totalAmount == b.totalAmount
    && a.createdAt == b.createdAt
  }

  /** `Order.Create`; `id` and `now` are what `Guid.NewGuid()` and
      `DateTime.UtcNow` yield during the call. */
  function Create(id: Guid, pedidoId: string, items: seq<OrderItem>, now: Instant): (o: Order)
    ensures o.id == id && o.pedidoId == pedidoId && o.items == items && o.createdAt == now
    ensures o.totalAmount == SumTotals(items)
    ensures o.taxAmount == 0.0
    ensures o.status == Pending
    ensures o.processedAt == None
  {
    Order(id, pedidoId, items, SumTotals(items), 0.0, Pending, now, None)
  }

  /** `Order.ApplyTax`: unconditional, so a second call overwrites the first. */
  function ApplyTax(o: Order, taxAmount: real): (r: Order)
    ensures SameAggregate(o, r)
    ensures r.taxAmount == taxAmount
    ensures r.status == o.status && r.processedAt == o.processedAt
  {
    o.(taxAmount := taxAmount)
  }

  /** `Order.MarkAsProcessing`: unconditional, from any status. */
  function MarkAsProcessing(o: Order): (r: Order)
    ensures SameAggregate(o, r)
    ensures r.status == Processing
    ensures r.taxAmount == o.taxAmount && r.processedAt == o.processedAt
  {
    o.(status := Processing)
  }

  /** `Order.MarkAsProcessed`; `now` is the `DateTime.UtcNow` reading. */
  function MarkAsProcessed(o: Order, now: Instant): (r: Order)
    ensures SameAggregate(o, r)
    ensures r.status == Processed
    ensures r.processedAt == Some(now)
    ensures r.taxAmount == o.taxAmount
  {
    o.(status := Processed, processedAt := Some(now))
  }

  /** `Order.MarkAsFailed`: the processed timestamp is left as it was. */
  function MarkAsFailed(o: Order): (r: Order)
    ensures SameAggregate(o, r)
    ensures r.status == Failed
    ensures r.taxAmount == o.taxAmount && r.processedAt == o.processedAt
  {
    o.(status := Failed)
  }

  /** A call of one of the four public mutators. */
  datatype Transition =
    | ApplyTaxStep(taxAmount: real)
    | ProcessingStep
    | ProcessedStep(now: Instant)
    | FailedStep

  function Step(o: Order, t: Transition): Order {
    match t
    case ApplyTaxStep(tax) => ApplyTax(o, tax)
    case ProcessingStep => MarkAsProcessing(o)
    case ProcessedStep(now) => MarkAsProcessed(o, now)
    case FailedStep => MarkAsFailed(o)
  }

  /** The order after the calls `ts`, in sequence. */
  function Run(o: Order, ts: seq<Transition>): Order
    decreases |ts|
  {
    if |ts| == 0 then o else Run(Step(o, ts[0]), ts[1..])
  }

  /** The statuses an order passes through under `ts`, starting with its own. */
  function StatusTrace(o: Order, ts: seq<Transition>): seq<OrderStatus>
    decreases |ts|
  {
    if |ts| == 0 then [o.status] else [o.status] + StatusTrace(Step(o, ts[0]), ts[1..])
  }

  /** No sequence of mutator calls changes the id, external id, items, total or
      creation time: the total is fixed at creation. */
  lemma {:induction false} RunKeepsAggregate(o: Order, ts: seq<Transition>)
    ensures SameAggregate(o, Run(o, ts))
    decreases |ts|
  {
    if |ts| > 0 {
      RunKeepsAggregate(Step(o, ts[0]), ts[1..]);
    }
  }

  /** Whenever an order reachable from `Create` is Processed, it carries a
      processed timestamp: only `MarkAsProcessed` enters that status, and no
      operation clears the timestamp. */
  ghost predicate ProcessedIsStamped(o: Order) {
    o.status == Processed ==> o.processedAt.Some?
  }

  lemma {:induction false} RunKeepsStamp(o: Order, ts: seq<Transition>)
    requires ProcessedIsStamped(o)
    ensures ProcessedIsStamped(Run(o, ts))
    ensures o.processedAt.Some? ==> Run(o, ts).processedAt.Some?
    decreases |ts|
  {
    if |ts| > 0 {
      RunKeepsStamp(Step(o, ts[0]), ts[1..]);
    }
  }

  lemma CreatedOrdersStayStamped(id: Guid, pedidoId: string, items: seq<OrderItem>, now: Instant, ts: seq<Transition>)
    ensures ProcessedIsStamped(Run(Create(id, pedidoId, items, now), ts))
  {
    RunKeepsStamp(Create(id, pedidoId, items, now), ts);
  }

  /** The transitions are not one-way: nothing in `Order` stops a Processed or
      Failed order from returning to Processing, or a second `ApplyTax`. */
  lemma TransitionsAreUnguarded(o: Order, now: Instant, t1: real, t2: real)
    ensures MarkAsProcessing(MarkAsProcessed(o, now)).status == Processing
    ensures MarkAsProcessing(MarkAsFailed(o)).status == Processing
    ensures ApplyTax(ApplyTax(o, t1), t2).taxAmount == t2
  {
  }

  /** The total is the sum over the items in any split of the list. */
  lemma {:induction false} SumTotalsAppend(a: seq<OrderItem>, b: seq<OrderItem>)
    ensures SumTotals(a + b) == SumTotals(a) + SumTotals(b)
    decreases |a|
  {
    if |a| == 0 {
      assert a + b == b;
    } else {
      assert (a + b)[1..] == a[1..] + b;
      SumTotalsAppend(a[1..], b);
    }
  }

  /** Exchanging two blocks of items does not affect the total. */
  lemma SumTotalsSwap(a: seq<OrderItem>, b: seq<OrderItem>)
    ensures SumTotals(a + b) == SumTotals(b + a)
  {
    SumTotalsAppend(a, b);
    SumTotalsAppend(b, a);
  }

  /** Taking one line out of the list leaves the rest of the total. */
  lemma {:induction false} SumTotalsRemove(items: seq<OrderItem>, i: int)
    requires 0 <= i < |items|
    ensures SumTotals(items) == TotalPrice(items[i]) + SumTotals(items[..i] + items[i + 1..])
  {
    assert items == items[..i] + items[i..];
    SumTotalsAppend(items[..i], items[i..]);
    assert items[i..][1..] == items[i + 1..];
    SumTotalsAppend(items[..i], items[i + 1..]);
  }

  /** Taking out the line at `i` takes one copy of it out of the multiset. */
  lemma MultisetRemove(items: seq<OrderItem>, i: int)
    requires 0 <= i < |items|
    ensures multiset(items[..i] + items[i + 1..]) == multiset(items) - multiset{items[i]}
  {
    assert items == items[..i] + [items[i]] + items[i + 1..];
  }

  /** The first line of `a` occurs in any `b` with the same lines; taking
      it out of both leaves lists with the same lines. */
  lemma MatchFirst(a: seq<OrderItem>, b: seq<OrderItem>) returns (i: int)
    requires |a| > 0
    requires multiset(a) == multiset(b)
    ensures 0 <= i < |b| && b[i] == a[0]
    ensures multiset(a[1..]) == multiset(b[..i] + b[i + 1..])
  {
    assert a[0] in multiset(a);
    assert a[0] in b;
    i :| 0 <= i < |b| && b[i] == a[0];
    assert a == [a[0]] + a[1..];
    assert multiset(a[1..]) == multiset(a) - multiset{a[0]};
    MultisetRemove(b, i);
  }

  /** Any reordering of the items has the same total: the sum depends only on
      the multiset of lines. */
  lemma {:induction false} SumTotalsPermutation(a: seq<OrderItem>, b: seq<OrderItem>)
    requires multiset(a) == multiset(b)
    ensures SumTotals(a) == SumTotals(b)
    decreases |a|
  {
    if |a| == 0 {
      assert |b| == |multiset(b)| == 0;
    } else {
      var i := MatchFirst(a, b);
      SumTotalsPermutation(a[1..], b[..i] + b[i + 1..]);
      SumTotalsRemove(b, i);
    }
  }

  /** Every line has a positive quantity and a positive unit price. */
  ghost predicate AllLinesPositive(items: seq<OrderItem>) {
    forall i :: 0 <= i < |items| ==> items[i].quantity > 0 && items[i].unitPrice > 0.0
  }

  /** A non-empty list of positive lines has a positive total. */
  lemma {:induction false} SumTotalsPositive(items: seq<OrderItem>)
    requires |items| > 0
    requires AllLinesPositive(items)
    ensures SumTotals(items) > 0.0
    decreases |items|
  {
    TotalPricePositive(items[0]);
    if |items| > 1 {
      SumTotalsPositive(items[1..]);
    } else {
      assert items[1..] == [];
    }
  }
}

=== FILE: order_item.dfy ===
/** One line of an order: a product, a quantity and a unit price. Its total
    is derived on every read, never stored. */
module OrderItems {
  import opened Primitives

  datatype OrderItem = OrderItem(id: Guid, productName: string, quantity: Int32, unitPrice: real)

  /** `OrderItem.TotalPrice`: the line total, recomputed from the stored fields. */
  function TotalPrice(item: OrderItem): real {
    (item.quantity as int) as real * item.unitPrice
  }

  /** `OrderItem.Create`; `id` is the value `Guid.NewGuid()` yields for it. */
  function Create(id: Guid, productName: string, quantity: Int32, unitPrice: real): (item: OrderItem)
    ensures item.id == id
    ensures item.productName == productName
    ensures item.quantity == quantity
    ensures item.unitPrice == unitPrice
    ensures TotalPrice(item) == (quantity as int) as real * unitPrice
    ensures quantity > 0 && unitPrice > 0.0 ==> TotalPrice(item) > 0.0
  {
    OrderItem(id, productName, quantity, unitPrice)
  }

  /** A line with a positive quantity and a positive price has a positive total. */
  lemma TotalPricePositive(item: OrderItem)
    requires item.quantity > 0 && item.unitPrice > 0.0
    ensures TotalPrice(item) > 0.0
  {
  }

  /** Two units at 50.00 give a line total of 100.00. */
  lemma TotalPriceExample(id: Guid)
    ensures TotalPrice(Create(id, "Product A", 2, 50.00)) == 100.00
  {
  }
}

=== FILE: primitives.dfy ===
/** The platform types the service builds on, reduced to what the model needs. */
module Primitives {

  /** A nullable reference: `null` is `None`. */
  datatype Option<+T> = None | Some(value: T)

  /** A `Guid`, represented by its textual form (`Guid.ToString()`). */
  datatype Guid = Guid(text: string)

  /** A `DateTime` reading, in ticks. */
  type Instant = int

  /** C#'s `int`. */
  newtype Int32 = x: int | -0x8000_0000 <= x < 0x8000_0000
}

=== FILE: queries.dfy ===
/** `GetOrderByIdQueryHandler` and `GetOrderByPedidoIdQueryHandler`: look the
    order up in the store and map it to its response, or fail with the
    matching not-found error. Neither writes to the store. */
module OrderQueries {
  import opened Primitives
  import opened Common
  import opened Dtos
  import opened InMemoryOrderRepository
  import opened CreateOrderHandler

  /** `GetOrderByIdQueryHandler.Handle`. */
  function GetOrderById(s: Store, id: Guid): (r: Result<OrderResponse>)
    ensures r.Failure? <==> id !in s
    ensures r.Failure? ==> r.error == OrderNotFound(id)
    ensures r.Success? ==> r.value == ToResponse(s[id]) && r.value.pedidoId == s[id].pedidoId
    ensures r.Success? && WellKeyed(s) ==> r.value.id == id
  {
    match GetById(s, id)
    case None => Failure(OrderNotFound(id))
    case Some(order) => Success(ToResponse(order))
  }

  /** `GetOrderByPedidoIdQueryHandler.Handle`. When external ids are unique the
      answer is determined: it is the one order carrying that id. */
  method GetOrderByPedidoId(s: Store, pedidoId: string) returns (r: Result<OrderResponse>)
    ensures r.Failure? <==> !Exists(s, pedidoId)
    ensures r.Failure? ==> r.error == OrderNotFoundByPedidoId(pedidoId)
    ensures r.Success? ==> r.value.pedidoId == pedidoId
    ensures r.Success? ==> exists k :: k in s && r.value == ToResponse(s[k])
    ensures forall k :: UniquePedidoIds(s) && k in s && s[k].pedidoId == pedidoId ==>
              r == Success(ToResponse(s[k]))
  {
    var order := GetByPedidoId(s, pedidoId);
    match order
    case None =>
      r := Failure(OrderNotFoundByPedidoId(pedidoId));
    case Some(o) =>
      r := Success(ToResponse(o));
  }

  /** After a successful create, looking up the returned Id succeeds; when
      the fresh Id was not already taken, it returns the created order. */
  lemma CreateThenGetById(s: Store, cmd: CreateOrderCommand, env: Env, useNewTaxCalculation: bool)
    requires Fits(env, cmd)
    requires Handle(s, cmd, env, useNewTaxCalculation).0.Success?
    ensures var out := Handle(s, cmd, env, useNewTaxCalculation);
            GetOrderById(out.1, out.0.value.id).Success?
    ensures var out := Handle(s, cmd, env, useNewTaxCalculation);
            env.orderId !in s ==> GetOrderById(out.1, out.0.value.id) == out.0
  {
  }

  /** After a successful create with a fresh Id, the external id is found, so
      `GetOrderByPedidoId` succeeds with an order carrying it. */
  lemma CreateThenPedidoIdFound(s: Store, cmd: CreateOrderCommand, env: Env, useNewTaxCalculation: bool)
    requires Fits(env, cmd)
    requires env.orderId !in s
    requires Handle(s, cmd, env, useNewTaxCalculation).0.Success?
    ensures Exists(Handle(s, cmd, env, useNewTaxCalculation).1, cmd.pedidoId)
  {
    var order := BuildOrder(cmd, env, useNewTaxCalculation);
    AddThenExists(s, order, cmd.pedidoId);
  }

  /** An id that was never stored is not found, with the not-found code. */
  lemma MissingIdNotFound(s: Store, id: Guid)
    requires id !in s
    ensures GetOrderById(s, id).error.code == "Order.NotFound"
  {
  }
}

=== FILE: repository.dfy ===
/** `InMemoryOrderRepository`: a dictionary from order Id to order. The
    dictionary enumerates its values in an order it does not specify; the
    operations that depend on that order are methods that may pick any. */
module InMemoryOrderRepository {
  import opened Primitives
  import opened Orders

  type Store = map<Guid, Order>

  /** Some stored order has external id `pedidoId`. */
  ghost predicate HasPedidoId(s: Store, pedidoId: string) {
    exists k :: k in s && s[k].pedidoId == pedidoId
  }

  /** Every order is stored under its own Id, as `AddAsync` and `UpdateAsync` key it. */
  ghost predicate WellKeyed(s: Store) {
    forall k :: k in s ==> s[k].id == k
  }

  /** No two stored orders share an external id. */
  ghost predicate UniquePedidoIds(s: Store) {
    forall k1, k2 :: k1 in s && k2 in s && s[k1].pedidoId == s[k2].pedidoId ==> k1 == k2
  }

  /** `ks` lists every key of `s` exactly once. */
  ghost predicate IsEnumeration(s: Store, ks: seq<Guid>) {
    && (forall i, j :: 0 <= i < j < |ks| ==> ks[i] != ks[j])
    && (forall k :: k in s <==> k in ks)
  }

  /** The order in which the dictionary happens to enumerate its entries. */
  method Enumerate(s: Store) returns (ks: seq<Guid>)
    ensures IsEnumeration(s, ks)
    ensures |ks| == |s|
  {
    ks := [];
    var rest := s.Keys;
    while rest != {}
      invariant rest <= s.Keys
      invariant forall i, j :: 0 <= i < j < |ks| ==> ks[i] != ks[j]
      invariant forall k :: k in ks ==> k in s && k !in rest
      invariant forall k :: k in s ==> k in ks || k in rest
      invariant |ks| + |rest| == |s|
      decreases |rest|
    {
      var k :| k in rest;
      ks := ks + [k];
      rest := rest - {k};
    }
  }

  /** The stored orders in the enumeration order `ks`. */
  function ValuesIn(s: Store, ks: seq<Guid>): (vs: seq<Order>)
    requires forall k :: k in ks ==> k in s
    ensures |vs| == |ks|
    ensures forall i :: 0 <= i < |ks| ==> vs[i] == s[ks[i]]
  {
    seq(|ks|, i requires 0 <= i < |ks| => s[ks[i]])
  }

  /** `GetByIdAsync`: `TryGetValue`, null on a miss. */
  function GetById(s: Store, id: Guid): (r: Option<Order>)
    ensures r.Some? <==> id in s
    ensures r.Some? ==> r.value == s[id]
  {
    if id in s then Some(s[id]) else None
  }

  /** `FirstOrDefault(o => o.PedidoId == pedidoId)` over a list of orders. */
  function FirstWithPedidoId(orders: seq<Order>, pedidoId: string): (r: Option<Order>)
    ensures r.Some? <==> exists i :: 0 <= i < |orders| && orders[i].pedidoId == pedidoId
    ensures r.Some? ==> r.value in orders && r.value.pedidoId == pedidoId
    ensures r.Some? ==> exists i :: 0 <= i < |orders| && orders[i] == r.value
                           && forall j :: 0 <= j < i ==> orders[j].pedidoId != pedidoId
    decreases |orders|
  {
    if |orders| == 0 then None
    else if orders[0].pedidoId == pedidoId then Some(orders[0])
    else
      var r := FirstWithPedidoId(orders[1..], pedidoId);
      assert forall i :: 1 <= i < |orders| ==> orders[i] == orders[1..][i - 1];
      r
  }

  /** `GetByPedidoIdAsync`: the first match in enumeration order, null if none. */
  method GetByPedidoId(s: Store, pedidoId: string) returns (r: Option<Order>)
    ensures r.Some? <==> HasPedidoId(s, pedidoId)
    ensures r.Some? ==> r.value in s.Values && r.value.pedidoId == pedidoId
  {
    var ks := Enumerate(s);
    var vs := ValuesIn(s, ks);
    r := FirstWithPedidoId(vs, pedidoId);
    if HasPedidoId(s, pedidoId) {
      var k :| k in s && s[k].pedidoId == pedidoId;
      var i :| 0 <= i < |ks| && ks[i] == k;
      assert vs[i].pedidoId == pedidoId;
    }
  }

  /** `GetAllAsync`: every stored order, once each, in enumeration order. */
  method GetAll(s: Store) returns (orders: seq<Order>)
    ensures |orders| == |s|
    ensures forall o :: o in orders <==> o in s.Values
    ensures WellKeyed(s) ==> Distinct(orders)
  {
    var ks := Enumerate(s);
    orders := ValuesIn(s, ks);
    forall o | o in s.Values
      ensures o in orders
    {
      var k :| k in s && s[k] == o;
      var i :| 0 <= i < |ks| && ks[i] == k;
      assert orders[i] == o;
    }
  }

  /** No order appears twice in `orders`. */
  ghost predicate Distinct(orders: seq<Order>) {
    forall i, j :: 0 <= i < j < |orders| ==> orders[i] != orders[j]
  }

  /** Dropping the first order keeps a list without repeats free of repeats. */
  lemma DistinctTail(orders: seq<Order>)
    requires |orders| > 0 && Distinct(orders)
    ensures Distinct(orders[1..]) && orders[0] !in orders[1..]
  {
    forall i, j | 0 <= i < j < |orders[1..]|
      ensures orders[1..][i] != orders[1..][j]
    {
      assert orders[1..][i] == orders[i + 1] && orders[1..][j] == orders[j + 1];
    }
  }

  /** Putting a new order in front of a list without repeats keeps it free of repeats. */
  lemma DistinctCons(o: Order, rest: seq<Order>)
    requires Distinct(rest) && o !in rest
    ensures Distinct([o] + rest)
  {
    forall i, j | 0 <= i < j < |[o] + rest|
      ensures ([o] + rest)[i] != ([o] + rest)[j]
    {
      assert ([o] + rest)[j] == rest[j - 1];
      if i > 0 {
        assert ([o] + rest)[i] == rest[i - 1];
      }
    }
  }

  /** `Where(o => o.Status == OrderStatus.Processed)` over a list of orders:
      each Processed order is kept as often as it occurs, every other one is
      dropped. */
  function ProcessedOnly(orders: seq<Order>): (r: seq<Order>)
    ensures forall o :: o in r <==> o in orders && o.status == Processed
    ensures forall o :: multiset(r)[o] == if o.status == Processed then multiset(orders)[o] else 0
    ensures |r| <= |orders|
    ensures Distinct(orders) ==> Distinct(r)
    decreases |orders|
  {
    if |orders| == 0 then []
    else
      var x := orders[0];
      var rest := ProcessedOnly(orders[1..]);
      assert orders == [x] + orders[1..];
      assert multiset(orders) == multiset{x} + multiset(orders[1..]);
      var r := if x.status == Processed then [x] + rest else rest;
      assert multiset(r) == if x.status == Processed then multiset{x} + multiset(rest) else multiset(rest);
      assert forall o :: o in orders <==> o == x || o in orders[1..];
      assert Distinct(orders) ==> Distinct(r) by {
        if Distinct(orders) {
          DistinctTail(orders);
          if x.status == Processed {
            DistinctCons(x, rest);
          }
        }
      }
      r
  }

  /** The filter keeps the relative order: filtering a concatenation is
      concatenating the filtered parts, and a single order is kept exactly
      when it is Processed. Together these fix the result completely. */
  lemma {:induction false} ProcessedOnlyAppend(a: seq<Order>, b: seq<Order>)
    ensures ProcessedOnly(a + b) == ProcessedOnly(a) + ProcessedOnly(b)
    decreases |a|
  {
    if |a| > 0 {
      assert (a + b)[1..] == a[1..] + b;
      ProcessedOnlyAppend(a[1..], b);
    } else {
      assert a + b == b;
    }
  }

  lemma ProcessedOnlySingle(o: Order)
    ensures ProcessedOnly([o]) == if o.status == Processed then [o] else []
  {
    assert [o][1..] == [];
  }

  /** `GetProcessedOrdersAsync`: exactly the stored orders whose status is
      Processed; in a well-keyed store each of them appears once. */
  method GetProcessed(s: Store) returns (orders: seq<Order>)
    ensures forall o :: o in orders <==> o in s.Values && o.status == Processed
    ensures |orders| <= |s|
    ensures WellKeyed(s) ==> Distinct(orders)
  {
    var all := GetAll(s);
    orders := ProcessedOnly(all);
  }

  /** `ExistsAsync`: some stored order has external id `pedidoId`. */
  function Exists(s: Store, pedidoId: string): (b: bool)
    ensures b <==> HasPedidoId(s, pedidoId)
  {
    exists o | o in s.Values :: o.pedidoId == pedidoId
  }

  /** `AddAsync`: `TryAdd`, which leaves the store as it was when the Id is taken. */
  function Add(s: Store, o: Order): (r: Store)
    ensures r.Keys == s.Keys + {o.id}
    ensures forall k :: k in s ==> r[k] == s[k]
    ensures o.id !in s ==> r[o.id] == o
  {
    if o.id in s then s else s[o.id := o]
  }

  /** `UpdateAsync`: the indexer assignment, which inserts or replaces. */
  function Update(s: Store, o: Order): (r: Store)
    ensures r.Keys == s.Keys + {o.id}
    ensures r[o.id] == o
    ensures forall k :: k in s && k != o.id ==> r[k] == s[k]
  {
    s[o.id := o]
  }

  /** An added order can be read back by its Id. */
  lemma AddThenGetById(s: Store, o: Order)
    requires o.id !in s
    ensures GetById(Add(s, o), o.id) == Some(o)
  {
  }

  /** An updated order can be read back by its Id, whether or not it was stored before. */
  lemma UpdateThenGetById(s: Store, o: Order)
    ensures GetById(Update(s, o), o.id) == Some(o)
  {
  }

  /** After an add, an external id exists when it existed before or is the
      new order's, provided the Id was free. */
  lemma AddThenExists(s: Store, o: Order, pedidoId: string)
    ensures Exists(Add(s, o), pedidoId)
        <==> Exists(s, pedidoId) || (o.id !in s && o.pedidoId == pedidoId)
  {
    var r := Add(s, o);
    if Exists(r, pedidoId) && !Exists(s, pedidoId) {
      var k :| k in r && r[k].pedidoId == pedidoId;
      assert k !in s;
    }
    if o.id !in s && o.pedidoId == pedidoId {
      assert r[o.id].pedidoId == pedidoId;
    }
    if Exists(s, pedidoId) {
      var k :| k in s && s[k].pedidoId == pedidoId;
      assert r[k].pedidoId == pedidoId;
    }
  }

  /** Adding keeps the store well keyed, and keeps external ids unique when the
      new one is not yet taken. */
  lemma AddKeepsInvariants(s: Store, o: Order)
    requires WellKeyed(s) && UniquePedidoIds(s)
    requires !Exists(s, o.pedidoId)
    ensures WellKeyed(Add(s, o)) && UniquePedidoIds(Add(s, o))
  {
    var r := Add(s, o);
    forall k1, k2 | k1 in r && k2 in r && r[k1].pedidoId == r[k2].pedidoId
      ensures k1 == k2
    {
      if k1 !in s || k2 !in s {
        assert o.id !in s;
        assert k1 !in s ==> k1 == o.id && r[k1] == o;
        assert k2 !in s ==> k2 == o.id && r[k2] == o;
      }
    }
  }
}

=== FILE: tax.dfy ===
/** The current tax policy: a flat 30% of the order total, kept at full
    decimal precision. */
module CurrentTaxStrategy {

  const TaxRate: real := 3.0 / 10.0

  const StrategyName: string := "Current"

  function CalculateTax(totalAmount: real): (tax: real)
    ensures 10.0 * tax == 3.0 * totalAmount
    ensures totalAmount >= 0.0 ==> 0.0 <= tax <= totalAmount
  {
    totalAmount * TaxRate
  }

  /** The test values: whole amounts and a repeating-decimal input, exactly. */
  lemma Examples()
    ensures CalculateTax(0.0) == 0.0
    ensures CalculateTax(100.0) == 30.0
    ensures CalculateTax(200.0) == 60.0
    ensures CalculateTax(1000.0) == 300.0
    ensures CalculateTax(333.33) == 99.999
  {
  }

  /** The tax of a sum is the sum of the taxes. */
  lemma Additive(a: real, b: real)
    ensures CalculateTax(a + b) == CalculateTax(a) + CalculateTax(b)
  {
  }
}

/** The reform tax policy: a flat 20% of the order total, kept at full
    decimal precision. */
module ReformTaxStrategy {

  const TaxRate: real := 2.0 / 10.0

  const StrategyName: string := "TaxReform"

  function CalculateTax(totalAmount: real): (tax: real)
    ensures 10.0 * tax == 2.0 * totalAmount
    ensures totalAmount >= 0.0 ==> 0.0 <= tax <= totalAmount
  {
    totalAmount * TaxRate
  }

  lemma Examples()
    ensures CalculateTax(0.0) == 0.0
    ensures CalculateTax(100.0) == 20.0
    ensures CalculateTax(200.0) == 40.0
    ensures CalculateTax(1000.0) == 200.0
    ensures CalculateTax(333.33) == 66.666
  {
  }

  lemma Additive(a: real, b: real)
    ensures CalculateTax(a + b) == CalculateTax(a) + CalculateTax(b)
  {
  }
}

/** `ITaxCalculationStrategy` and `TaxStrategyFactory`: the two policies as
    one type, and the choice between them by the feature flag
    `FeatureFlags:UseNewTaxCalculation`, passed in as a boolean. */
module TaxStrategies {
  import CurrentTaxStrategy
  import ReformTaxStrategy

  datatype Strategy = Current | Reform

  function CalculateTax(s: Strategy, totalAmount: real): real {
    match s
    case Current => CurrentTaxStrategy.CalculateTax(totalAmount)
    case Reform => ReformTaxStrategy.CalculateTax(totalAmount)
  }

  function StrategyName(s: Strategy): string {
    match s
    case Current => CurrentTaxStrategy.StrategyName
    case Reform => ReformTaxStrategy.StrategyName
  }

  /** `TaxStrategyFactory.GetStrategy`: the flag as read at this call decides;
      nothing is remembered between calls. */
  function GetStrategy(useNewTaxCalculation: bool): (s: Strategy)
    ensures useNewTaxCalculation <==> s == Reform
    ensures StrategyName(s) == (if useNewTaxCalculation then "TaxReform" else "Current")
  {
    if useNewTaxCalculation then Reform else Current
  }

  /** The effective rate is 20% with the flag on and 30% with it off. */
  lemma EffectiveRate(useNewTaxCalculation: bool, totalAmount: real)
    ensures CalculateTax(GetStrategy(useNewTaxCalculation), totalAmount)
         == totalAmount * (if useNewTaxCalculation then 2.0 / 10.0 else 3.0 / 10.0)
  {
  }

  /** On a non-negative total the reform never taxes more than the current policy. */
  lemma ReformNotAboveCurrent(totalAmount: real)
    requires totalAmount >= 0.0
    ensures CalculateTax(Reform, totalAmount) <= CalculateTax(Current, totalAmount)
  {
  }
}

=== FILE: text.dfy ===
/** String predicates the service relies on: .NET's notion of white space,
    suffix tests and substring containment. Strings are `seq<char>`. */
module Text {

  /** .NET `char.IsWhiteSpace`: the Unicode space, line and paragraph
      separators, the C0 controls U+0009..U+000D and U+0085. */
  predicate IsWhiteSpace(c: char) {
    || ('\U{9}' <= c <= '\U{D}')
    || c == ' '
    || c == '\U{85}'
    || c == '\U{A0}'
    || c == '\U{1680}'
    || ('\U{2000}' <= c <= '\U{200A}')
    || c == '\U{2028}'
    || c == '\U{2029}'
    || c == '\U{202F}'
    || c == '\U{205F}'
    || c == '\U{3000}'
  }

  /** `string.IsNullOrWhiteSpace` on a non-null string: empty, or white space only. */
  predicate IsBlank(s: string) {
    forall i :: 0 <= i < |s| ==> IsWhiteSpace(s[i])
  }

  /** `s.EndsWith(suffix)`, compared character by character. */
  predicate EndsWith(s: string, suffix: string) {
    |suffix| <= |s| && s[|s| - |suffix|..] == suffix
  }

  /** `sub` occurs in `s` starting at position `i`. */
  predicate OccursAt(s: string, sub: string, i: int) {
    0 <= i <= |s| - |sub| && s[i..i + |sub|] == sub
  }

  /** `s.Contains(sub)`: `sub` occurs in `s` at some position. */
  predicate Contains(s: string, sub: string) {
    exists i | 0 <= i <= |s| - |sub| :: OccursAt(s, sub, i)
  }

  /** A string occurs in any concatenation that has it in the middle. */
  lemma ContainsMiddle(pre: string, mid: string, post: string)
    ensures Contains(pre + mid + post, mid)
  {
    var s := pre + mid + post;
    assert s[|pre|..|pre| + |mid|] == mid;
    assert OccursAt(s, mid, |pre|);
  }

  /** A suffix test fixes the last character: two suffixes whose last
      characters differ cannot both end the same string. */
  lemma EndsWithLastChar(s: string, suffix: string)
    requires |suffix| > 0
    requires EndsWith(s, suffix)
    ensures s[|s| - 1] == suffix[|suffix| - 1]
  {
    assert s[|s| - |suffix|..][|suffix| - 1] == s[|s| - 1];
  }
}

=== FILE: validators.dfy ===
/** The two FluentValidation rule sets: `CreateOrderRequestValidator` (with
    `OrderItemRequestValidator`), run by the controller on the request body,
    and `CreateOrderCommandValidator`, registered for the command. Each
    yields the failures it reports, rule by rule in declaration order; a
    value is valid when the list is empty. */
module Validators {
  import opened Primitives
  import opened Text
  import opened Dtos

  /** `PedidoId`, `Items`, or a property of the item at `index` (`Items[index].ProductName`). */
  datatype PropertyPath = Property(name: string) | ItemProperty(index: nat, field: ItemField)

  /** The three validated properties of `OrderItemRequest`, in declaration order. */
  datatype ItemField = ProductName | Quantity | UnitPrice

  /** The six messages the rules declare with `WithMessage`. */
  datatype FailureMessage =
    | PedidoIdRequiredMessage
    | PedidoIdTooLongMessage
    | ItemsRequiredMessage
    | ProductNameRequiredMessage
    | QuantityNotPositiveMessage
    | UnitPriceNotPositiveMessage

  /** The text a failure carries as its `ErrorMessage`. */
  function MessageText(m: FailureMessage): string {
    match m
    case PedidoIdRequiredMessage => "PedidoId is required."
    case PedidoIdTooLongMessage => "PedidoId must not exceed 50 characters."
    case ItemsRequiredMessage => "At least one item is required."
    case ProductNameRequiredMessage => "ProductName is required."
    case QuantityNotPositiveMessage => "Quantity must be greater than 0."
    case UnitPriceNotPositiveMessage => "UnitPrice must be greater than 0."
  }

  /** No two messages share a text, so naming the message loses nothing:
      the six texts even differ in length. */
  lemma MessageTextInjective(m: FailureMessage, n: FailureMessage)
    ensures MessageText(m) == MessageText(n) <==> m == n
  {
    MessageTextLength(m);
    MessageTextLength(n);
  }

  lemma MessageTextLength(m: FailureMessage)
    ensures |MessageText(m)| == match m
      case PedidoIdRequiredMessage => 21
      case PedidoIdTooLongMessage => 39
      case ItemsRequiredMessage => 30
      case ProductNameRequiredMessage => 24
      case QuantityNotPositiveMessage => 32
      case UnitPriceNotPositiveMessage => 33
  {
  }

  datatype ValidationFailure = ValidationFailure(property: PropertyPath, message: FailureMessage)

  /** `NotEmpty()` on a string: rejects the empty and the white-space-only string. */
  predicate NotEmpty(s: string) {
    !IsBlank(s)
  }

  /** `MaximumLength(50)` on the command's PedidoId. */
  const MaxPedidoIdLength: nat := 50

  const PedidoIdRequired: ValidationFailure := ValidationFailure(Property("PedidoId"), PedidoIdRequiredMessage)
  const PedidoIdTooLong: ValidationFailure := ValidationFailure(Property("PedidoId"), PedidoIdTooLongMessage)
  const ItemsRequired: ValidationFailure := ValidationFailure(Property("Items"), ItemsRequiredMessage)

  /** The failure each item rule reports for the item at `index`. */
  function ProductNameRequired(index: nat): ValidationFailure {
    ValidationFailure(ItemProperty(index, ProductName), ProductNameRequiredMessage)
  }

  function QuantityNotPositive(index: nat): ValidationFailure {
    ValidationFailure(ItemProperty(index, Quantity), QuantityNotPositiveMessage)
  }

  function UnitPriceNotPositive(index: nat): ValidationFailure {
    ValidationFailure(ItemProperty(index, UnitPrice), UnitPriceNotPositiveMessage)
  }

  /** The position of an item rule among the three, in declaration order. */
  function ItemRuleRank(field: ItemField): nat {
    match field
    case ProductName => 0
    case Quantity => 1
    case UnitPrice => 2
  }

  /** Where a failure sits in the order FluentValidation reports rules: the
      PedidoId rules, then the Items rules, then the item rules item by item. */
  function RuleKey(f: ValidationFailure): int {
    match f.property
    case ItemProperty(index, field) => 3 * index + ItemRuleRank(field)
    case Property(_) =>
      if f == PedidoIdRequired then -3 else if f == PedidoIdTooLong then -2 else -1
  }

  /** Each failure comes strictly after the previous one in rule order. */
  ghost predicate InRuleOrder(r: seq<ValidationFailure>) {
    forall a, b :: 0 <= a < b < |r| ==> RuleKey(r[a]) < RuleKey(r[b])
  }

  /** Rule order, where one rule may report more than once. */
  ghost predicate InRuleOrderWithRepeats(r: seq<ValidationFailure>) {
    forall a, b :: 0 <= a < b < |r| ==> RuleKey(r[a]) <= RuleKey(r[b])
  }

  lemma InRuleOrderAppend(x: seq<ValidationFailure>, y: seq<ValidationFailure>)
    requires InRuleOrder(x) && InRuleOrder(y)
    requires forall f, g :: f in x && g in y ==> RuleKey(f) < RuleKey(g)
    ensures InRuleOrder(x + y)
  {
    forall a, b | 0 <= a < b < |x + y|
      ensures RuleKey((x + y)[a]) < RuleKey((x + y)[b])
    {
      if b < |x| {
        assert (x + y)[a] == x[a] && (x + y)[b] == x[b];
      } else if a >= |x| {
        assert (x + y)[a] == y[a - |x|] && (x + y)[b] == y[b - |x|];
      } else {
        assert (x + y)[a] in x && (x + y)[b] in y;
      }
    }
  }

  lemma InRuleOrderWithRepeatsAppend(x: seq<ValidationFailure>, y: seq<ValidationFailure>)
    requires InRuleOrderWithRepeats(x) && InRuleOrderWithRepeats(y)
    requires forall f, g :: f in x && g in y ==> RuleKey(f) <= RuleKey(g)
    ensures InRuleOrderWithRepeats(x + y)
  {
    forall a, b | 0 <= a < b < |x + y|
      ensures RuleKey((x + y)[a]) <= RuleKey((x + y)[b])
    {
      if b < |x| {
        assert (x + y)[a] == x[a] && (x + y)[b] == x[b];
      } else if a >= |x| {
        assert (x + y)[a] == y[a - |x|] && (x + y)[b] == y[b - |x|];
      } else {
        assert (x + y)[a] in x && (x + y)[b] in y;
      }
    }
  }

  /** The item rules, shared word for word by both rule sets. */
  ghost predicate ItemRulesHold(item: OrderItemRequest) {
    NotEmpty(item.productName) && item.quantity > 0 && item.unitPrice > 0.0
  }

  ghost predicate AllItemRulesHold(items: seq<OrderItemRequest>) {
    forall i :: 0 <= i < |items| ==> ItemRulesHold(items[i])
  }

  /** One rule: nothing when it holds, its failure when it is broken. */
  function Rule(holds: bool, failure: ValidationFailure): seq<ValidationFailure> {
    if holds then [] else [failure]
  }

  /** The child rules for the item at `index`: each broken rule reports its
      own failure once, and no other failure is reported. */
  function ItemFailures(index: nat, item: OrderItemRequest): (r: seq<ValidationFailure>)
    ensures |r| == 0 <==> ItemRulesHold(item)
    ensures ProductNameRequired(index) in r <==> !NotEmpty(item.productName)
    ensures QuantityNotPositive(index) in r <==> item.quantity <= 0
    ensures UnitPriceNotPositive(index) in r <==> item.unitPrice <= 0.0
    ensures forall f :: f in r ==>
              f == ProductNameRequired(index) || f == QuantityNotPositive(index) || f == UnitPriceNotPositive(index)
  {
    Rule(NotEmpty(item.productName), ProductNameRequired(index))
    + Rule(item.quantity > 0, QuantityNotPositive(index))
    + Rule(item.unitPrice > 0.0, UnitPriceNotPositive(index))
  }

  /** The three item rules, whatever their outcomes, report in declaration
      order inside the block of three keys that belongs to `index`. */
  lemma ItemRulesInOrder(index: nat, name: bool, quantity: bool, price: bool)
    ensures var r := Rule(name, ProductNameRequired(index)) + Rule(quantity, QuantityNotPositive(index))
                     + Rule(price, UnitPriceNotPositive(index));
            && InRuleOrder(r)
            && |r| <= 3
            && forall f :: f in r ==>
                 && f.property.ItemProperty? && f.property.index == index
                 && 3 * index <= RuleKey(f) < 3 * index + 3
  {
    var x := Rule(name, ProductNameRequired(index));
    var y := Rule(quantity, QuantityNotPositive(index));
    var z := Rule(price, UnitPriceNotPositive(index));
    assert forall f :: f in x ==> f == ProductNameRequired(index);
    assert forall f :: f in y ==> f == QuantityNotPositive(index);
    assert forall f :: f in z ==> f == UnitPriceNotPositive(index);
    assert RuleKey(ProductNameRequired(index)) == 3 * index;
    assert RuleKey(QuantityNotPositive(index)) == 3 * index + 1;
    assert RuleKey(UnitPriceNotPositive(index)) == 3 * index + 2;
    InRuleOrderAppend(x, y);
    InRuleOrderAppend(x + y, z);
    forall f: ValidationFailure | f in x + y + z
      ensures f.property.ItemProperty? && f.property.index == index && 3 * index <= RuleKey(f) < 3 * index + 3
    {
      assert f in x || f in y || f in z;
    }
  }

  /** An item's failures come in declaration order, at most one per rule,
      all about that item and ranked inside its block of three. */
  lemma ItemFailuresInRuleOrder(index: nat, item: OrderItemRequest)
    ensures InRuleOrder(ItemFailures(index, item))
    ensures |ItemFailures(index, item)| <= 3
    ensures forall f :: f in ItemFailures(index, item) ==>
              && f.property.ItemProperty? && f.property.index == index
              && 3 * index <= RuleKey(f) < 3 * index + 3
  {
    ItemRulesInOrder(index, NotEmpty(item.productName), item.quantity > 0, item.unitPrice > 0.0);
  }

  /** `RuleForEach(x => x.Items)`: the child rules for every item, in list order. */
  function EachItemFailures(items: seq<OrderItemRequest>): (r: seq<ValidationFailure>)
    ensures |r| == 0 <==> AllItemRulesHold(items)
    ensures forall f :: f in r ==> f.property.ItemProperty? && f.property.index < |items|
    ensures forall f :: f in r ==> 0 <= RuleKey(f) < 3 * |items|
    decreases |items|
  {
    if |items| == 0 then []
    else
      var last := |items| - 1;
      assert forall i :: 0 <= i < last ==> items[..last][i] == items[i];
      ItemFailuresInRuleOrder(last, items[last]);
      EachItemFailures(items[..last]) + ItemFailures(last, items[last])
  }

  /** The item failures are reported item by item, each item's in rule
      order, never twice, and at most three per item. */
  lemma {:induction false} EachItemFailuresInRuleOrder(items: seq<OrderItemRequest>)
    ensures InRuleOrder(EachItemFailures(items))
    ensures |EachItemFailures(items)| <= 3 * |items|
    decreases |items|
  {
    if |items| > 0 {
      var last := |items| - 1;
      EachItemFailuresInRuleOrder(items[..last]);
      ItemFailuresInRuleOrder(last, items[last]);
      InRuleOrderAppend(EachItemFailures(items[..last]), ItemFailures(last, items[last]));
    }
  }

  /** A failure is among the item failures exactly when it names an item of
      the list and that item's rules report it. */
  lemma {:induction false} EachItemFailuresExactly(items: seq<OrderItemRequest>, f: ValidationFailure)
    ensures f in EachItemFailures(items) <==>
              && f.property.ItemProperty?
              && f.property.index < |items|
              && f in ItemFailures(f.property.index, items[f.property.index])
    decreases |items|
  {
    if |items| > 0 {
      var last := |items| - 1;
      var prefix := items[..last];
      assert EachItemFailures(items) == EachItemFailures(prefix) + ItemFailures(last, items[last]);
      EachItemFailuresExactly(prefix, f);
      ItemFailuresInRuleOrder(last, items[last]);
      if f.property.ItemProperty? && f.property.index < last {
        assert prefix[f.property.index] == items[f.property.index];
        ItemFailuresInRuleOrder(f.property.index, items[f.property.index]);
      }
    }
  }

  /** The rules of `CreateOrderCommandValidator`, as one condition. */
  ghost predicate CommandRulesHold(cmd: CreateOrderCommand) {
    && NotEmpty(cmd.pedidoId)
    && |cmd.pedidoId| <= MaxPedidoIdLength
    && |cmd.items| > 0
    && AllItemRulesHold(cmd.items)
  }

  /** `CreateOrderCommandValidator`: each PedidoId and Items rule reports its
      failure exactly when it is broken. */
  function ValidateCommand(cmd: CreateOrderCommand): (r: seq<ValidationFailure>)
    ensures |r| == 0 <==> CommandRulesHold(cmd)
    ensures PedidoIdRequired in r <==> !NotEmpty(cmd.pedidoId)
    ensures PedidoIdTooLong in r <==> |cmd.pedidoId| > MaxPedidoIdLength
    ensures ItemsRequired in r <==> |cmd.items| == 0
  {
    var head := CommandHead(cmd);
    var each := EachItemFailures(cmd.items);
    assert PedidoIdRequired !in each && PedidoIdTooLong !in each && ItemsRequired !in each;
    head + each
  }

  /** Apart from the PedidoId and Items failures, the command reports exactly
      the item failures of its child rules. */
  lemma ValidateCommandExactly(cmd: CreateOrderCommand, f: ValidationFailure)
    ensures f.property.ItemProperty? ==> (f in ValidateCommand(cmd) <==> f in EachItemFailures(cmd.items))
    ensures f in ValidateCommand(cmd) ==>
              f == PedidoIdRequired || f == PedidoIdTooLong || f == ItemsRequired || f.property.ItemProperty?
  {
    assert ValidateCommand(cmd) == CommandHead(cmd) + EachItemFailures(cmd.items);
  }

  /** The PedidoId and Items rules of the command validator. */
  function CommandHead(cmd: CreateOrderCommand): (head: seq<ValidationFailure>)
    ensures |head| == 0 <==> NotEmpty(cmd.pedidoId) && |cmd.pedidoId| <= MaxPedidoIdLength && |cmd.items| > 0
    ensures PedidoIdRequired in head <==> !NotEmpty(cmd.pedidoId)
    ensures PedidoIdTooLong in head <==> |cmd.pedidoId| > MaxPedidoIdLength
    ensures ItemsRequired in head <==> |cmd.items| == 0
    ensures forall f :: f in head ==> RuleKey(f) < 0 && f.property.Property?
    ensures InRuleOrder(head)
  {
    Rule(NotEmpty(cmd.pedidoId), PedidoIdRequired)
    + Rule(|cmd.pedidoId| <= MaxPedidoIdLength, PedidoIdTooLong)
    + Rule(|cmd.items| > 0, ItemsRequired)
  }

  /** The command's failures come in rule order, never twice, at most three
      for the PedidoId and Items rules and three per item. */
  lemma ValidateCommandInRuleOrder(cmd: CreateOrderCommand)
    ensures InRuleOrder(ValidateCommand(cmd))
    ensures |ValidateCommand(cmd)| <= 3 + 3 * |cmd.items|
  {
    EachItemFailuresInRuleOrder(cmd.items);
    InRuleOrderAppend(CommandHead(cmd), EachItemFailures(cmd.items));
  }

  /** The two `Items` rules of the request validator: `NotEmpty()` and the
      `Must(items != null && items.Count > 0)` check test the same condition,
      so they fail together and report the message twice. */
  function ItemsPresenceFailures(items: Option<seq<OrderItemRequest>>): (r: seq<ValidationFailure>)
    ensures r == [] <==> items.Some? && |items.value| > 0
    ensures r == [] || r == [ItemsRequired, ItemsRequired]
  {
    var notEmpty := Rule(items.Some? && |items.value| > 0, ItemsRequired);
    var must := Rule(items.Some? && |items.value| > 0, ItemsRequired);
    notEmpty + must
  }

  /** The rules of `CreateOrderRequestValidator`, as one condition. */
  ghost predicate RequestRulesHold(req: CreateOrderRequest) {
    && NotEmpty(req.pedidoId)
    && req.items.Some?
    && |req.items.value| > 0
    && AllItemRulesHold(req.items.value)
  }

  /** The item failures of a request: none for a null list. */
  function RequestItemFailures(items: Option<seq<OrderItemRequest>>): (r: seq<ValidationFailure>)
    ensures forall f :: f in r ==> f.property.ItemProperty? && RuleKey(f) >= 0
  {
    match items
    case None => []
    case Some(items) => EachItemFailures(items)
  }

  /** `CreateOrderRequestValidator`; `RuleForEach` skips a null list. The
      PedidoId failure appears exactly when the id is blank and the Items
      failure exactly when the list is null or empty. */
  function ValidateRequest(req: CreateOrderRequest): (r: seq<ValidationFailure>)
    ensures |r| == 0 <==> RequestRulesHold(req)
    ensures |r| == 0 ==> req.items.Some?
    ensures PedidoIdRequired in r <==> !NotEmpty(req.pedidoId)
    ensures ItemsRequired in r <==> req.items.None? || |req.items.value| == 0
  {
    RequestHead(req) + ItemsPresenceFailures(req.items) + RequestItemFailures(req.items)
  }

  /** The PedidoId rule of the request validator. */
  function RequestHead(req: CreateOrderRequest): (head: seq<ValidationFailure>)
    ensures head == [] || head == [PedidoIdRequired]
  {
    Rule(NotEmpty(req.pedidoId), PedidoIdRequired)
  }

  /** Apart from the PedidoId and Items failures, the request reports exactly
      the item failures of its child rules. */
  lemma ValidateRequestExactly(req: CreateOrderRequest, f: ValidationFailure)
    ensures f.property.ItemProperty? ==>
              (f in ValidateRequest(req) <==> req.items.Some? && f in EachItemFailures(req.items.value))
    ensures f in ValidateRequest(req) ==> f == PedidoIdRequired || f == ItemsRequired || f.property.ItemProperty?
  {
    assert ValidateRequest(req) == RequestHead(req) + ItemsPresenceFailures(req.items) + RequestItemFailures(req.items);
  }

  /** The PedidoId failure is reported at most once, the Items failure twice
      or not at all. */
  lemma ValidateRequestCounts(req: CreateOrderRequest)
    ensures multiset(ValidateRequest(req))[PedidoIdRequired] <= 1
    ensures multiset(ValidateRequest(req))[ItemsRequired] == if req.items.Some? && |req.items.value| > 0 then 0 else 2
  {
    var head := RequestHead(req);
    var presence := ItemsPresenceFailures(req.items);
    var each := RequestItemFailures(req.items);
    assert PedidoIdRequired !in each && ItemsRequired !in each;
    assert multiset(each)[PedidoIdRequired] == 0 && multiset(each)[ItemsRequired] == 0;
    assert multiset(head + presence + each) == multiset(head) + multiset(presence) + multiset(each);
  }

  /** Rules in strict order before and after a run of Items failures: every
      failure but the Items one ranks strictly before all that follow it, so
      only the Items failure can be listed twice. */
  lemma OnlyItemsRepeat(x: seq<ValidationFailure>, y: seq<ValidationFailure>, z: seq<ValidationFailure>)
    requires InRuleOrder(x) && InRuleOrder(z)
    requires forall f :: f in x ==> RuleKey(f) < RuleKey(ItemsRequired)
    requires forall f :: f in y ==> f == ItemsRequired
    requires forall f :: f in z ==> RuleKey(ItemsRequired) < RuleKey(f)
    ensures var r := x + y + z;
            forall a, b :: 0 <= a < b < |r| ==> r[a] == ItemsRequired || RuleKey(r[a]) < RuleKey(r[b])
    ensures var r := x + y + z;
            forall a, b :: 0 <= a < b < |r| && r[a] == r[b] ==> r[a] == ItemsRequired
  {
    var r := x + y + z;
    forall a, b | 0 <= a < b < |r|
      ensures r[a] == ItemsRequired || RuleKey(r[a]) < RuleKey(r[b])
    {
      if b < |x| {
        assert r[a] == x[a] && r[b] == x[b];
      } else if a >= |x| + |y| {
        assert r[a] == z[a - |x| - |y|] && r[b] == z[b - |x| - |y|];
      } else if a < |x| {
        assert r[a] == x[a] && x[a] in x;
        if b < |x| + |y| {
          assert r[b] == y[b - |x|] && y[b - |x|] in y;
        } else {
          assert r[b] == z[b - |x| - |y|] && z[b - |x| - |y|] in z;
        }
      } else {
        assert r[a] == y[a - |x|] && y[a - |x|] in y;
      }
    }
  }

  /** The request's failures come in rule order, the Items failure being the
      only one reported twice, at most three plus three per item. */
  lemma ValidateRequestInRuleOrder(req: CreateOrderRequest)
    ensures InRuleOrderWithRepeats(ValidateRequest(req))
    ensures var r := ValidateRequest(req);
            forall a, b :: 0 <= a < b < |r| && r[a] == r[b] ==> r[a] == ItemsRequired
    ensures |ValidateRequest(req)| <= 3 + (if req.items.Some? then 3 * |req.items.value| else 0)
  {
    var head := RequestHead(req);
    var presence := ItemsPresenceFailures(req.items);
    var each := RequestItemFailures(req.items);
    if req.items.Some? {
      EachItemFailuresInRuleOrder(req.items.value);
    }
    assert InRuleOrder(head);
    assert InRuleOrder(each);
    OnlyItemsRepeat(head, presence, each);
    assert InRuleOrderWithRepeats(each);
    assert InRuleOrderWithRepeats(presence);
    InRuleOrderWithRepeatsAppend(head, presence);
    InRuleOrderWithRepeatsAppend(head + presence, each);
    assert ValidateRequest(req) == head + presence + each;
  }

  /** The request the controller would have turned into `cmd`. */
  function RequestOf(cmd: CreateOrderCommand): CreateOrderRequest {
    CreateOrderRequest(cmd.pedidoId, Some(cmd.items))
  }

  /** The request rules are the command rules without the length limit: on a
      request the controller accepts, the command is valid exactly when the
      PedidoId has at most 50 characters. */
  lemma RequestValidThenCommandValidIffShort(cmd: CreateOrderCommand)
    requires ValidateRequest(RequestOf(cmd)) == []
    ensures ValidateCommand(cmd) == [] <==> |cmd.pedidoId| <= MaxPedidoIdLength
  {
  }

  /** Every command the command validator accepts, the request validator accepts too. */
  lemma CommandValidThenRequestValid(cmd: CreateOrderCommand)
    requires ValidateCommand(cmd) == []
    ensures ValidateRequest(RequestOf(cmd)) == []
  {
  }

  /** The converse fails: a 51-character PedidoId passes the request rules
      and fails the command rules. */
  lemma LongPedidoIdSplitsTheValidators()
    ensures var cmd := CreateOrderCommand(seq(51, _ => 'P'), [OrderItemRequest("Product", 1, 10.00)]);
            && ValidateRequest(RequestOf(cmd)) == []
            && ValidateCommand(cmd) == [PedidoIdTooLong]
  {
    var p: string := seq(51, _ => 'P');
    assert !IsWhiteSpace(p[0]);
    assert !IsWhiteSpace("Product"[0]);
  }

  /** An empty PedidoId with an empty item list is refused, with one report
      for the PedidoId and two for the items. */
  lemma EmptyRequestRejected()
    ensures ValidateRequest(CreateOrderRequest("", Some([]))) == [PedidoIdRequired, ItemsRequired, ItemsRequired]
  {
  }

  /** A null item list is refused like an empty one. */
  lemma NullItemsRejected(pedidoId: string)
    requires NotEmpty(pedidoId)
    ensures ValidateRequest(CreateOrderRequest(pedidoId, None)) == [ItemsRequired, ItemsRequired]
  {
  }

  /** A white-space-only name is not a name. */
  lemma BlankProductNameRejected(index: nat)
    ensures ItemFailures(index, OrderItemRequest(" ", 1, 10.00))
         == [ProductNameRequired(index)]
  {
  }
}
